=== FILE: README.md ===
# NetBox Terraform provider: reconciliation core in Dafny

This project models the part of the NetBox Terraform provider (plugin
framework, protocol 6) that decides what to send to NetBox and what to keep
in Terraform state:

- the **site attribute mapper**. `generateWritableSite` builds the write
  payload from a site model; `Read` copies the read payload back into the
  tracked state, field by field;
- the **lifecycle** of the `netbox_site` and `netbox_virtual_machine`
  resources: Create, Read, Update and Delete, run against an abstract
  remote store;
- the **tag resolver**. Each tag name is looked up with `Limit = 2` and
  classified by its match count (0, 1 or more). Resolution aborts at the
  first name that does not resolve;
- the **set-to-list conversion** `toInt64ListV6`;
- **provider configuration**, covering:
  - the precedence of the provider block over `NETBOX_*` environment
    variables;
  - the request-timeout default and its parsing with `strconv.ParseInt`
    semantics;
  - the missing token and URL errors;
  - the supported-version warning;
  - the list of registered resources.

Framework values are `Option`s, with `None` meaning null. Go pointers in
payloads are `Option`s too, and write payloads tell nil lists apart from
empty ones.
`int64`/`int32` are subset types, and floats are opaque bit patterns that
are only copied.

The REST client is replaced by `Api.Store`, a map per kind keyed by the
remote-assigned identifier. Every call receives the transport `fault` it may
suffer, and a create call receives the identifier the remote assigns (or its
refusal). Each lifecycle operation returns an `Outcome`:

- `Wrote`: the state was set;
- `Removed`: the resource was dropped from state;
- `Failed`: error diagnostics, and the state is left as it was;
- `Panicked`: the provider process aborts.

Modules follow the source files:

| module | file |
|---|---|
| `Framework` | framework values and diagnostics |
| `Api` | REST client and remote store |
| `Convert` | `utils_v6.go` |
| `Tags` | `tags_v6.go` |
| `SiteMapper`, `SiteSchema`, `SiteLifecycle` | `resource_netbox_site_v6.go` |
| `VirtualMachines` | `resource_netbox_virtual_machine_v6.go` |
| `Provider` | `provider_plugin.go` |

Where the code does something other than what it evidently intends (see
"## Findings"), the model has two members:

- an `AsWritten` member that follows the code as it stands;
- an unsuffixed, corrected member, which the rest of the model builds on.

Lemmas relate the two.

## Model

| member | source | states |
|---|---|---|
| Framework.RenderString | netbox/resource_netbox_virtual_machine_v6.go:78 | `String()` of a string value: "<null>" for null, otherwise a quoted form at least two characters longer than the value |
| Framework.RenderDiffersFromValue | netbox/resource_netbox_virtual_machine_v6.go:78 | the quoted rendering of a string never equals the string itself |
| Convert.ToInt64List | netbox/utils_v6.go:7-14 | the intended conversion: one element per element of the set, with the same value at the same position, so the output length equals the input length and an empty set gives the empty, non-nil list |
| Convert.ToInt64ListAsWritten | netbox/utils_v6.go:9-10 | the loop ranges over a freshly made zero-length slice, so the result is empty for every input |
| Convert.AsWrittenDropsElements | netbox/utils_v6.go:9-12 | for every non-empty set, the written conversion differs from the intended one, which keeps the first element |
| Tags.Classify | netbox/tags_v6.go:26-53 | a failed call is classified as a call failure and nothing else is; count 0 is "no match", count 1 with a result is a single match whose tag carries that result's name and slug, count 1 with an empty page is the out-of-range case, and any other count is "not unique" |
| Tags.FailureDiag | netbox/tags_v6.go:27-52 | a failed lookup, no match and a non-unique match each produce an error-severity diagnostic |
| Tags.GetNestedTagList | netbox/tags_v6.go:20-55 | at most one lookup per name, and never more tags than lookups |
| Tags.LookupsFollowNames | netbox/tags_v6.go:21-26 | the i-th lookup filters by the i-th name with limit 2 |
| Tags.ResolvedIffAllUnique | netbox/tags_v6.go:35-53 | resolution succeeds if and only if every name has exactly one match; it then made one lookup and returned one tag per name |
| Tags.TagsMatchNames | netbox/tags_v6.go:42-46 | the i-th tag is the single match of the i-th name, in iteration order |
| Tags.FirstFailureStops | netbox/tags_v6.go:26-52 | when the first k names resolve and the next does not, a failed call, no match or several matches abort with exactly the k earlier tags, k+1 lookups and that name's diagnostic (no later name is looked up); a count of 1 with an empty page crashes after k+1 lookups |
| Tags.StopsAtFirstFailure | netbox/tags_v6.go:27-52 | an aborted resolution made exactly one lookup past the resolved names and carries that name's diagnostic; a crash happens only on a count of 1 with an empty page |
| Tags.MissingTagAborts | netbox/tags_v6.go:36-41 | a name with no match anywhere in the list stops resolution at or before it, while the written resolver returns the empty list |
| Tags.ResolveAppend | netbox/tags_v6.go:21-54 | resolving a concatenation resolves the first part, and continues with the second only when the first resolved completely |
| Tags.GetNestedTagListAsWritten | netbox/tags_v6.go:18-21 | the loop ranges over a zero-length slice, so the returned list is always empty |
| SiteMapper.GenerateWritableSite | netbox/resource_netbox_site_v6.go:40-101 | fields in the payload:<br>- name, slug and status always come from the model;<br>- each optional string is the value when non-null, else "";<br>- pointers and references are nil exactly when null;<br>- a null tag or ASN set becomes an empty, non-nil list;<br>- the ASNs are converted element by element, and the tags are exactly those the resolver returns, one per name;<br>exactly when a tag does not resolve, mapping fails with the resolver's diagnostic for the first failing name, or crashes on an out-of-range lookup |
| SiteMapper.GenerateWritableSiteAsWritten | netbox/resource_netbox_site_v6.go:84-98 | the written mapper sends the scalar and reference fields of the model with empty tag and ASN lists, on every path, including when a tag does not resolve |
| SiteMapper.AsWrittenDropsTagsAndAsns | netbox/resource_netbox_site_v6.go:84-98 | the written payload equals the intended one except that the tags and ASNs are emptied |
| SiteMapper.NullingAnOptionalFieldResetsOnlyIt | netbox/resource_netbox_site_v6.go:48-92 | for each optional attribute (description, facility, both addresses, longitude, latitude, region, group, tenant, timezone), nulling it changes only its payload field, to "" or nil |
| SiteMapper.ApplyRemoteSite | netbox/resource_netbox_site_v6.go:278-308 | inbound copy:<br>- name, slug, status, coordinates, timezone and ASNs are always overwritten;<br>- description and facility only when the remote value is non-empty;<br>- region, group and tenant only when the reference is non-nil;<br>- an empty address becomes null;<br>- the ASN set is the remote's ASNs, and for a site with none it is null or empty as the ASN helper reads "no ASNs";<br>- id and tags are kept |
| SiteMapper.ApplyRemoteSiteAsWritten | netbox/resource_netbox_site_v6.go:279-308 | the written copy always stores the remote addresses as non-null values, "" included, and copies every other field exactly as the corrected inbound copy does |
| SiteMapper.RoundTrip | netbox/resource_netbox_site_v6.go:279-308 | mapping a model out and reading it back changes only a null status (to ""), an address that is "" (to null), and a null or empty ASN set (to the helper's reading of "no ASNs") |
| SiteMapper.RoundTripExact | netbox/resource_netbox_site_v6.go:279-308 | the round trip reproduces the model if and only if the status is non-null, neither address is "", and the ASN set is non-empty or already in the form the helper gives to "no ASNs" |
| SiteMapper.AsWrittenRoundTripKeepsEmptyAddresses | netbox/resource_netbox_site_v6.go:291-292 | as written, a physical or shipping address removed from the configuration comes back as "" instead of null |
| SiteMapper.AsWrittenRoundTripDropsAsns | netbox/resource_netbox_site_v6.go:94-98 | as written, a non-empty ASN set comes back null or empty, without its ASNs |
| SiteSchema.LengthBetween | netbox/resource_netbox_site_v6.go:165 | a length bound passes a null value, and a known value exactly when its length is within the bounds |
| SiteSchema.ValidateSite | netbox/resource_netbox_site_v6.go:142-172 | violations are reported attribute by attribute:<br>- name and slug are required;<br>- the slug length must be in [1,100], the description in [1,200] and the facility in [1,50];<br>- the status must be one of the options up to ASCII case;<br>no other violation is ever reported, and there is none exactly when the configuration is valid |
| SiteSchema.PlanFromConfig | netbox/resource_netbox_site_v6.go:153-160 | the plan's status is the configured one, or "active" when null; nothing else changes |
| SiteSchema.StatusCaseInsensitive | netbox/resource_netbox_site_v6.go:157 | a status accepted in one spelling is accepted in every spelling that differs only in ASCII case |
| SiteSchema.ValidPlanStatus | netbox/resource_netbox_site_v6.go:146-160 | a valid configuration's plan has a status that is "active" or an allowed option, and a slug of length 1 to 100 |
| SiteLifecycle.Create | netbox/resource_netbox_site_v6.go:215-248 | success requires a mapped payload and an assigned identifier; state is then the plan with that identifier, and the remote stores the payload; a tag error or a remote error reports an error and leaves state and remote untouched |
| SiteLifecycle.CreateAsWritten | netbox/resource_netbox_site_v6.go:232-247 | the written Create succeeds whenever the remote assigns an identifier, and stores the tagless, ASN-less payload with the virtual machines untouched; a remote error leaves the remote unchanged |
| SiteLifecycle.UnresolvedTagStopsOnlyCorrectedCreate | netbox/resource_netbox_site_v6.go:232-236 | a tag anywhere in the set that matches nothing: the written Create still creates the site with no tags, while the corrected one does not create it, and leaves the remote untouched when it reports the failure |
| SiteLifecycle.Read | netbox/resource_netbox_site_v6.go:250-312 | a 404 removes the resource without error; another failure reports an error; a found site is copied into state by the inbound rules; the remote is unchanged |
| SiteLifecycle.ReadAsWritten | netbox/resource_netbox_site_v6.go:266-278 | the written Read removes on a 404 and panics on every other failure; short of a panic it leaves the remote unchanged |
| SiteLifecycle.ReadOfVanishedSiteRemovesState | netbox/resource_netbox_site_v6.go:268-274 | a site missing from the remote is dropped from state without error |
| SiteLifecycle.ReadTransportFailure | netbox/resource_netbox_site_v6.go:268-278 | a transport failure crashes the written Read and is reported by the corrected one |
| SiteLifecycle.Update | netbox/resource_netbox_site_v6.go:314-343 | the corrected Update sends the plan; on success state is the plan under the existing identifier; a tag error or remote error is reported as an error with the remote unchanged and no state written; it panics only when the tag lookup crashes on an out-of-range result |
| SiteLifecycle.UpdateAsWritten | netbox/resource_netbox_site_v6.go:327-342 | the written Update sends a payload built from the prior state and writes that same state back |
| SiteLifecycle.UpdateAsWrittenIgnoresPlan | netbox/resource_netbox_site_v6.go:327-329 | the written Update gives the same outcome for any two plans |
| SiteLifecycle.UpdateDropsDescriptionOnlyWhenCorrected | netbox/resource_netbox_site_v6.go:327-342 | removing the description from the configuration nulls it in state only in the corrected Update |
| SiteLifecycle.Delete | netbox/resource_netbox_site_v6.go:345-373 | success or a 404 removes the resource; the remote then loses exactly the tracked site, or nothing when the call failed; any other failure reports an error and leaves the remote unchanged |
| SiteLifecycle.DeleteAsWritten | netbox/resource_netbox_site_v6.go:361-372 | the written Delete reports only a typed non-404 error, and removes the resource on every other outcome; the remote loses at most the tracked site |
| SiteLifecycle.DeleteIsIdempotent | netbox/resource_netbox_site_v6.go:363-366 | deleting a site already gone from the remote removes it from state without error |
| SiteLifecycle.DeleteAsWrittenLosesTrackedSite | netbox/resource_netbox_site_v6.go:363-372 | on a transport failure, the written Delete drops the state while the remote still holds the site |
| SiteLifecycle.CreateThenRead | netbox/resource_netbox_site_v6.go:245-308 | Create then Read leaves the plan with its identifier, after the attribute round trip |
| SiteLifecycle.UpdateThenRead | netbox/resource_netbox_site_v6_test.go:92-104 | Update then Read leaves the new plan under the existing identifier, after the attribute round trip; in a store that replaces the whole record on update, a description, address or coordinate removed from the configuration reads back null, as the field-update test expects |
| VirtualMachines.CreatePayload | netbox/resource_netbox_virtual_machine_v6.go:76-82 | the payload's name and status come from the plan; the cluster is set exactly when `cluster_id` is non-null |
| VirtualMachines.CreatePayloadAsWritten | netbox/resource_netbox_virtual_machine_v6.go:76-82 | the written payload differs from the intended one only in carrying the quoted rendering of the status |
| VirtualMachines.AsWrittenNeverSendsPlannedStatus | netbox/resource_netbox_virtual_machine_v6.go:78 | the written payload never carries the planned status itself |
| VirtualMachines.Create | netbox/resource_netbox_virtual_machine_v6.go:58-92 | success is exactly an assigned identifier; state is then the plan with that identifier, and the remote stores the payload with the sites untouched; an error leaves state and remote untouched |
| VirtualMachines.CreateAsWritten | netbox/resource_netbox_virtual_machine_v6.go:58-92 | the same outcome, with the written payload: success exactly on an assigned identifier, the sites untouched, and an error leaving the remote unchanged |
| VirtualMachines.ApplyRemoteVm | netbox/resource_netbox_virtual_machine_v6.go:117-126 | name and status come from the remote; a nil cluster gives a null `cluster_id`, otherwise its identifier; the id is kept |
| VirtualMachines.Read | netbox/resource_netbox_virtual_machine_v6.go:94-128 | a 404 removes the resource without error; another failure reports an error; a found machine is copied into state |
| VirtualMachines.ReadAsWritten | netbox/resource_netbox_virtual_machine_v6.go:106-117 | the written Read removes on a 404 and panics on every other failure; short of a panic it leaves the remote unchanged |
| VirtualMachines.Update | netbox/resource_netbox_virtual_machine_v6.go:130-133 | always panics with "implement me" |
| VirtualMachines.Delete | netbox/resource_netbox_virtual_machine_v6.go:135-138 | always panics with "implement me" |
| VirtualMachines.NoTransitionThroughUpdateOrDelete | netbox/resource_netbox_virtual_machine_v6.go:130-138 | neither Update nor Delete can write or remove state |
| VirtualMachines.ReadOfVanishedVmRemovesState | netbox/resource_netbox_virtual_machine_v6.go:108-114 | a machine missing from the remote is dropped from state without error |
| VirtualMachines.CreateThenRead | netbox/resource_netbox_virtual_machine_v6.go:76-126 | Create then Read returns a valid plan exactly, `cluster_id` included; with the written payload, the status comes back quoted |
| Provider.ParseInt32 | netbox/provider_plugin.go:47 | `strconv.ParseInt(s, 10, 32)`: a failed parse returns 0, the lower or the upper 32-bit bound; what each input gives is stated by `Provider.ParseInt32Meaning` |
| Provider.ParseInt32Meaning | netbox/provider_plugin.go:47-52 | against an independent reading of sign and digits:<br>- an integer parses exactly when it lies in the 32-bit range, with its value;<br>- an integer outside that range fails with the bound on its sign's side;<br>- anything else fails, with value 0, unless the digits before the offending character already exceed 2^32-1, when the sign's bound comes back |
| Provider.ParseFormatRoundTrip | netbox/provider_plugin.go:47 | every 32-bit integer written in decimal parses back to itself without error |
| Provider.ParseExamples | netbox/provider_plugin.go:47-50 | "+7" parses to 7; "-", "abc" and "-1x" fail with value 0 |
| Provider.InvalidTimeoutReported | netbox/provider_plugin.go:44-53 | a set timeout variable is reported if and only if it is not an integer or lies outside the 32-bit range; otherwise the timeout is the integer it denotes |
| Provider.EnvironmentTimeout | netbox/provider_plugin.go:44-53 | an empty variable gives the default 10; otherwise the parsed value, with the invalid-timeout error exactly when parsing fails |
| Provider.ResolveSettings | netbox/provider_plugin.go:37-77 | each of token, URL and timeout comes from the configuration when non-null, else from the environment; an empty token and an empty URL are each reported, independently |
| Provider.Configure | netbox/provider_plugin.go:37-108 | the status call is made only with a client and without `skip_version_check`; the client is stored only when that call, if made, succeeded; there is an error exactly when a setting is missing or invalid, the client fails or the status call fails; there is a warning exactly for an unsupported version; the summaries reported are exactly those of the settings plus the client, status and version ones when they occur, and nothing else |
| Provider.UnsupportedVersionOnlyWarns | netbox/provider_plugin.go:99-103 | an unsupported version adds a warning and never changes whether there is an error |
| Provider.Resources | netbox/provider_plugin.go:114-121 | exactly one resource kind is registered, the site; the virtual machine is not |

## Left out

- The REST client and its generated types are out of scope, as is `Config.Client()`: its error is a parameter of `Configure`. The remote is `Api.Store`, whose calls fail with a given fault or else act on the map, and whose create calls are told the identifier the remote assigns.
- The wire effect of a partial update (JSON `omitempty`) is not modelled: the store keeps exactly the payload it was sent, so a "" sent for an optional string reads back as "".
- Framework plumbing is left out, as the host's concern:
  - `Metadata`, `Schema` descriptions, `ImportState`;
  - the resource-level `Configure` type assertion;
  - the nil-client guard at the head of every operation;
  - plan and state `Get`/`Set` serialisation and their diagnostics.
- Unknown values are left out: the host resolves them before any operation runs.
- `resourceNetboxSiteStatusOptions` and `buildValidValueDescription` are defined elsewhere in the repository: the status options are a parameter of `SiteSchema.ValidateSite`. `getIDsFromNestedASNList` is not part of this model either: the read payload carries the ASN identifiers directly. Whether a site without ASNs reads back as a null or an empty set depends on that helper returning a nil or an empty slice, so it is a parameter (`SiteMapper.NoAsns`) of the inbound copy, of Read and of the round-trip lemmas, which hold for both.
- A read payload with a nil `Status` object is not modelled: the read payload's status is the `Status.Value` pointer.
- Custom fields are left out, because the source does not implement them.
- The provider's `allow_insecure_https`, `headers` and `strip_trailing_slashes_from_url` are left out, because `Configure` does not read them. The type assertions on the status payload, which panic on an unexpected shape, are left out too.
- The body of the unsupported-version warning is left out, as it is formatted text only.
- Framework.RenderString: escapes only quote, backslash, newline, tab and carriage return, not the other non-printable characters Go's `%q` escapes. The model relies only on the added quotes.
- SiteSchema.LengthBetween: counts characters where the validator counts UTF-8 bytes; the two agree on ASCII values.
- SiteSchema.ValidateSite: folds ASCII case only, whereas the validator uses Unicode simple folding.
- Tags.FailureDiag: states the severity and not the message texts. The texts are modelled in its body with the source's wording.
- Tags.GetNestedTagList: its contract states only the counts. The content of the resolution (lookups, tags, the first failure) is stated by `Tags.LookupsFollowNames`, `Tags.ResolvedIffAllUnique`, `Tags.TagsMatchNames`, `Tags.StopsAtFirstFailure` and `Tags.FirstFailureStops`.
- SiteLifecycle.UpdateThenRead: the "removed field reads back null" conclusion rests on the modelled remote replacing the whole stored record on update; a remote that ignored the "" fields of a partial update would keep the old description, and the lemma says nothing about such a remote.
- Provider.ParseInt32: covers base 10 only, as the source uses it. A range error is reported as soon as the unsigned value exceeds 2^32-1, as `strconv.ParseUint` does.

## Findings

| source | as written | input that shows it | evidently intended | confidence | as-written member | corrected member |
|---|---|---|---|---|---|---|
| netbox/utils_v6.go:9-10 | the loop ranges over `make([]types.Int64, 0, n)`, a slice of length 0, so no element is converted | `asn_ids = [7]` gives `Asns = []` | iterate the set's elements | high; not executed | Convert.ToInt64ListAsWritten | Convert.ToInt64List |
| netbox/tags_v6.go:19-21 | the same zero-length slice: no tag is ever looked up or sent | `tags = ["prod"]`, with tag "prod" existing, gives `Tags = []` | iterate the set's elements | high; not executed | Tags.GetNestedTagListAsWritten | Tags.GetNestedTagList |
| netbox/resource_netbox_site_v6.go:40, 232 | `diag.Diagnostics` is passed by value, so a tag error never reaches the response, and Create goes on | `tags = ["missing"]`, with no such tag, creates the site without tags and without error | the error stops Create before the remote call | high; not executed | SiteLifecycle.CreateAsWritten | SiteLifecycle.Create |
| netbox/resource_netbox_site_v6.go:328-329 | Update reads the prior State, not the Plan, and sends and stores it | changing `description` from "a" to "b" sends "a" and keeps "a" | build the payload from the plan and store the plan | high; not executed | SiteLifecycle.UpdateAsWritten | SiteLifecycle.Update |
| netbox/resource_netbox_site_v6.go:268-278 | a failure that is not the typed 404 falls through to `res.GetPayload()` on a nil `res` | a transport error on Read | report the error and return | high; not executed | SiteLifecycle.ReadAsWritten | SiteLifecycle.Read |
| netbox/resource_netbox_virtual_machine_v6.go:108-117 | the same fall-through in the virtual machine Read | a transport error on Read | report the error and return | high; not executed | VirtualMachines.ReadAsWritten | VirtualMachines.Read |
| netbox/resource_netbox_site_v6.go:363-372 | a failure that is not the typed Default response adds no diagnostic, so the host drops the resource | a transport error on Delete of an existing site | report the error and keep the resource | medium; not executed | SiteLifecycle.DeleteAsWritten | SiteLifecycle.Delete |
| netbox/resource_netbox_virtual_machine_v6.go:78 | the status is sent as `String()`, the quoted rendering | `status = "active"` sends `"\"active\""` | `ValueString()` | high; not executed | VirtualMachines.CreatePayloadAsWritten | VirtualMachines.CreatePayload |
| netbox/resource_netbox_site_v6.go:291-292 | the addresses are stored with `StringValue` even when empty | removing `physical_address` from the configuration reads back "" where the field-update test expects null | an empty address reads back as null | medium; not executed | SiteMapper.ApplyRemoteSiteAsWritten | SiteMapper.ApplyRemoteSite |

=== FILE: api.dfy ===
/** The remote NetBox service as the resources see it through the REST
    client: wire payloads, an abstract store of sites and virtual machines,
    one function per remote call, and the outcome of a lifecycle operation.

    A call either fails with the `fault` the transport hands it, or is
    served by the store. The store keeps exactly what it is sent. */
module Api {
  import opened Framework

  /** A failed REST call. `Default` is the client's typed error response for
      an HTTP status code ("Not Found", section 15.5.5 of RFC 9110, is 404);
      every other failure (connection refused, undecodable body, ...) is
      `Transport`. */
  datatype ApiError = Default(code: int, message: string) | Transport(message: string) {
    predicate IsNotFound() {
      Default? && code == 404
    }
  }

  const NotFound: ApiError := Default(404, "Not Found")

  datatype Result<+T> = Ok(value: T) | Err(error: ApiError)

  /** models.NestedTag, as embedded in a write payload. */
  datatype NestedTag = NestedTag(name: Option<string>, slug: Option<string>)

  /** models.WritableSite. Pointer fields are `Option` (nil is `None`), plain
      strings hold "" as their zero value, and the two list fields are
      `Option` as well so that a nil list differs from an empty one. */
  datatype WritableSite = WritableSite(
    name: Option<string>,
    slug: Option<string>,
    status: string,
    description: string,
    facility: string,
    longitude: Option<Float64>,
    latitude: Option<Float64>,
    physicalAddress: string,
    shippingAddress: string,
    region: Option<Int64>,
    group: Option<Int64>,
    tenant: Option<Int64>,
    tags: Option<seq<NestedTag>>,
    timeZone: Option<string>,
    asns: Option<seq<Int64>>)

  /** models.Site, the read payload. Nested region, group, tenant and ASN
      objects are represented by their identifiers, `asns` being empty for a
      site without ASNs; `status` is the `Status.Value` pointer. */
  datatype Site = Site(
    name: Option<string>,
    slug: Option<string>,
    status: Option<string>,
    description: string,
    facility: string,
    longitude: Option<Float64>,
    latitude: Option<Float64>,
    physicalAddress: string,
    shippingAddress: string,
    region: Option<Int64>,
    group: Option<Int64>,
    tenant: Option<Int64>,
    timeZone: Option<string>,
    asns: seq<Int64>,
    tags: seq<NestedTag>)

  /** models.WritableVirtualMachineWithConfigContext, the fields the provider sets. */
  datatype WritableVirtualMachine = WritableVirtualMachine(name: Option<string>, status: string, cluster: Option<Int64>)

  /** models.VirtualMachineWithConfigContext, the fields the provider reads. */
  datatype VirtualMachine = VirtualMachine(name: Option<string>, status: Option<string>, cluster: Option<Int64>)

  /** The remote source of truth, keyed by remote-assigned identifier. */
  datatype Store = Store(sites: map<Int64, Site>, vms: map<Int64, VirtualMachine>)

  /** What the remote keeps of a site write payload. */
  function StoredSite(w: WritableSite): (s: Site)
    ensures s.status == Some(w.status)
    ensures s.asns == w.asns.GetOr([]) && s.tags == w.tags.GetOr([])
  {
    Site(w.name, w.slug, Some(w.status), w.description, w.facility,
         w.longitude, w.latitude, w.physicalAddress, w.shippingAddress,
         w.region, w.group, w.tenant, w.timeZone, w.asns.GetOr([]), w.tags.GetOr([]))
  }

  /** What the remote keeps of a virtual machine write payload. */
  function StoredVm(w: WritableVirtualMachine): (v: VirtualMachine)
    ensures v.name == w.name && v.status == Some(w.status) && v.cluster == w.cluster
  {
    VirtualMachine(w.name, Some(w.status), w.cluster)
  }

  /** The remote's answer to a create call: the identifier it assigned, or a refusal. */
  datatype CreateAnswer = Assigned(id: Int64) | Refused(error: ApiError)

  /** A remote call's result together with the store it leaves behind. */
  datatype Call<+T> = Call(result: Result<T>, store: Store)

  /** DcimSitesCreate */
  function SitesCreate(store: Store, w: WritableSite, answer: CreateAnswer): (c: Call<Int64>)
    requires answer.Assigned? ==> answer.id !in store.sites
    ensures c.result.Ok? <==> answer.Assigned?
    ensures c.result.Ok? ==> c.result.value !in store.sites && c.store.vms == store.vms
                             && c.store.sites == store.sites[c.result.value := StoredSite(w)]
    ensures c.result.Err? ==> c.store == store
  {
    match answer
    case Assigned(id) => Call(Ok(id), store.(sites := store.sites[id := StoredSite(w)]))
    case Refused(e) => Call(Err(e), store)
  }

  /** DcimSitesRead: a missing identifier is a 404. */
  function SitesRead(store: Store, id: Int64, fault: Option<ApiError>): (r: Result<Site>)
    ensures fault.None? ==> (r.Ok? <==> id in store.sites)
    ensures fault.None? && id in store.sites ==> r.value == store.sites[id]
    ensures fault.None? && id !in store.sites ==> r.error.IsNotFound()
  {
    if fault.Some? then Err(fault.value)
    else if id in store.sites then Ok(store.sites[id])
    else Err(NotFound)
  }

  /** DcimSitesPartialUpdate: the stored site is replaced by what was sent. */
  function SitesPartialUpdate(store: Store, id: Int64, w: WritableSite, fault: Option<ApiError>): (c: Call<()>)
    ensures c.result.Ok? <==> fault.None? && id in store.sites
    ensures c.result.Ok? ==> c.store == store.(sites := store.sites[id := StoredSite(w)])
    ensures c.result.Err? ==> c.store == store
  {
    if fault.Some? then Call(Err(fault.value), store)
    else if id in store.sites then Call(Ok(()), store.(sites := store.sites[id := StoredSite(w)]))
    else Call(Err(NotFound), store)
  }

  /** DcimSitesDelete: a missing identifier is a 404. */
  function SitesDelete(store: Store, id: Int64, fault: Option<ApiError>): (c: Call<()>)
    ensures c.result.Ok? <==> fault.None? && id in store.sites
    ensures c.result.Ok? ==> c.store == store.(sites := store.sites - {id})
    ensures fault.None? && id !in store.sites ==> c.result.error.IsNotFound()
    ensures c.result.Err? ==> c.store == store
  {
    if fault.Some? then Call(Err(fault.value), store)
    else if id in store.sites then Call(Ok(()), store.(sites := store.sites - {id}))
    else Call(Err(NotFound), store)
  }

  /** VirtualizationVirtualMachinesCreate */
  function VmsCreate(store: Store, w: WritableVirtualMachine, answer: CreateAnswer): (c: Call<Int64>)
    requires answer.Assigned? ==> answer.id !in store.vms
    ensures c.result.Ok? <==> answer.Assigned?
    ensures c.result.Ok? ==> c.result.value !in store.vms && c.store.sites == store.sites
                             && c.store.vms == store.vms[c.result.value := StoredVm(w)]
    ensures c.result.Err? ==> c.store == store
  {
    match answer
    case Assigned(id) => Call(Ok(id), store.(vms := store.vms[id := StoredVm(w)]))
    case Refused(e) => Call(Err(e), store)
  }

  /** VirtualizationVirtualMachinesRead: a missing identifier is a 404. */
  function VmsRead(store: Store, id: Int64, fault: Option<ApiError>): (r: Result<VirtualMachine>)
    ensures fault.None? ==> (r.Ok? <==> id in store.vms)
    ensures fault.None? && id in store.vms ==> r.value == store.vms[id]
    ensures fault.None? && id !in store.vms ==> r.error.IsNotFound()
  {
    if fault.Some? then Err(fault.value)
    else if id in store.vms then Ok(store.vms[id])
    else Err(NotFound)
  }

  /** What one lifecycle operation leaves for the host.
      - `Wrote`: no error, and the tracked state is set to `state`;
      - `Removed`: no error, and the resource is dropped from the tracked state;
      - `Failed`: error diagnostics; the tracked state stays as it was;
      - `Panicked`: the provider process aborts. */
  datatype Outcome<M> =
    | Wrote(state: M, store: Store)
    | Removed(store: Store)
    | Failed(diags: seq<Diagnostic>, store: Store)
    | Panicked(reason: string)

  /** Go's nil pointer dereference, reached by `res.GetPayload()` on a nil response. */
  const NilDereference: string := "invalid memory address or nil pointer dereference"
}

=== FILE: convert.dfy ===
/** `toInt64ListV6` (netbox/utils_v6.go): a framework set of int64 values
    turned into the `[]int64` a write payload carries. */
module Convert {
  import opened Framework

  /** The conversion as evidently intended: one `ValueInt64()` per element
      of the set, appended in iteration order to a non-nil list. */
  function ToInt64List(elements: seq<Int64>): (r: seq<Int64>)
    ensures |r| == |elements|
    ensures forall i :: 0 <= i < |r| ==> r[i] == elements[i]
  {
    if elements == [] then []
    else [elements[0]] + ToInt64List(elements[1..])
  }

  /** The conversion as written: the loop ranges over a slice made with
      length 0 (and capacity `len(a.Elements())`), so nothing is appended. */
  function ToInt64ListAsWritten(elements: seq<Int64>): (r: seq<Int64>)
    ensures r == []
  {
    var iterated := elements[..0];
    ToInt64List(iterated)
  }

  /** Every non-empty set loses all its elements in the written conversion. */
  lemma AsWrittenDropsElements(elements: seq<Int64>)
    requires elements != []
    ensures ToInt64ListAsWritten(elements) != ToInt64List(elements)
    ensures ToInt64List(elements)[0] == elements[0]
  {
  }
}

=== FILE: framework.dfy ===
/** Values of the Terraform plugin framework as the netbox resources see them:
    nullable attribute values, fixed-width integers, opaque floats, the
    `String()` rendering of a string value, and diagnostics. */
module Framework {

  /** A framework attribute value that is either null or known.
      Unknown values are resolved by the host before any operation runs. */
  datatype Option<+T> = None | Some(value: T) {

    /** `ValueString()`, `ValueInt64()`, `ValueBool()`: the zero value when null. */
    function GetOr(zero: T): T {
      match this
      case Some(v) => v
      case None => zero
    }
  }

  const MinInt64: int := -0x8000_0000_0000_0000
  const MaxInt64: int := 0x7FFF_FFFF_FFFF_FFFF
  type Int64 = x: int | MinInt64 <= x <= MaxInt64

  const MinInt32: int := -0x8000_0000
  const MaxInt32: int := 0x7FFF_FFFF
  type Int32 = x: int | MinInt32 <= x <= MaxInt32

  /** A float64 attribute (longitude, latitude). The resources only copy it,
      so it is kept as its bit pattern. */
  datatype Float64 = Float64(bits: bv64)

  datatype Severity = Error | Warning

  datatype Diagnostic = Diagnostic(severity: Severity, summary: string, detail: string)

  function ErrorDiag(summary: string, detail: string): Diagnostic {
    Diagnostic(Error, summary, detail)
  }

  /** `Diagnostics.HasError()` */
  predicate HasError(ds: seq<Diagnostic>) {
    exists i :: 0 <= i < |ds| && ds[i].severity == Error
  }

  predicate HasWarning(ds: seq<Diagnostic>) {
    exists i :: 0 <= i < |ds| && ds[i].severity == Warning
  }

  /** Some diagnostic carries the given summary. */
  predicate Reports(ds: seq<Diagnostic>, summary: string) {
    exists i :: 0 <= i < |ds| && ds[i].summary == summary
  }

  /** Appending diagnostics keeps those already reported and adds the new
      ones, and nothing else. */
  lemma AppendDiagnostics(a: seq<Diagnostic>, b: seq<Diagnostic>)
    ensures HasError(a + b) <==> HasError(a) || HasError(b)
    ensures HasWarning(a + b) <==> HasWarning(a) || HasWarning(b)
    ensures forall s :: Reports(a + b, s) <==> Reports(a, s) || Reports(b, s)
  {
    forall i | 0 <= i < |a| ensures (a + b)[i] == a[i] {}
    forall j | 0 <= j < |b| ensures (a + b)[|a| + j] == b[j] {}
    forall s ensures Reports(a + b, s) <==> Reports(a, s) || Reports(b, s) {
      if Reports(a + b, s) {
        var i :| 0 <= i < |a + b| && (a + b)[i].summary == s;
        if i >= |a| { assert b[i - |a|] == (a + b)[i]; }
      }
      if Reports(a, s) {
        var i :| 0 <= i < |a| && a[i].summary == s;
        assert (a + b)[i] == a[i];
      }
      if Reports(b, s) {
        var j :| 0 <= j < |b| && b[j].summary == s;
        assert (a + b)[|a| + j] == b[j];
      }
    }
    if HasError(a + b) {
      var i :| 0 <= i < |a + b| && (a + b)[i].severity == Error;
      if i >= |a| { assert b[i - |a|] == (a + b)[i]; }
    }
    if HasWarning(a + b) {
      var i :| 0 <= i < |a + b| && (a + b)[i].severity == Warning;
      if i >= |a| { assert b[i - |a|] == (a + b)[i]; }
    }
  }

  /** The diagnostics of a single entry are exactly that entry's. */
  lemma SingleDiagnostic(d: Diagnostic)
    ensures HasError([d]) <==> d.severity == Error
    ensures HasWarning([d]) <==> d.severity == Warning
    ensures forall s :: Reports([d], s) <==> d.summary == s
  {
    assert [d][0] == d;
  }

  /** `String()` of a framework string value: "<null>" for a null value,
      otherwise the value quoted the way Go's `%q` verb quotes it. */
  function RenderString(v: Option<string>): (r: string)
    ensures v.Some? ==> |r| >= |v.value| + 2 && r[0] == '"' && r[|r| - 1] == '"'
    ensures v.None? ==> r == "<null>"
  {
    match v
    case None => "<null>"
    case Some(s) => "\"" + Escape(s) + "\""
  }

  /** The body of a `%q` quotation: quote, backslash and the common control
      characters are escaped with a backslash; other characters are kept. */
  function Escape(s: string): (r: string)
    ensures |r| >= |s|
    ensures (forall i :: 0 <= i < |s| ==> !NeedsEscape(s[i])) ==> r == s
  {
    if s == [] then [] else EscapeChar(s[0]) + Escape(s[1..])
  }

  predicate NeedsEscape(c: char) {
    c == '"' || c == '\\' || c == '\n' || c == '\t' || c == '\r'
  }

  function EscapeChar(c: char): (r: string)
    ensures NeedsEscape(c) ==> |r| == 2 && r[0] == '\\'
    ensures !NeedsEscape(c) ==> r == [c]
  {
    if c == '"' then "\\\""
    else if c == '\\' then "\\\\"
    else if c == '\n' then "\\n"
    else if c == '\t' then "\\t"
    else if c == '\r' then "\\r"
    else [c]
  }

  /** A rendered value is never the raw value it renders. */
  lemma RenderDiffersFromValue(s: string)
    ensures RenderString(Some(s)) != s
  {
  }
}

=== FILE: provider.dfy ===
/** Provider configuration (netbox/provider_plugin.go, `Configure`): the API
    token, server URL and request timeout resolved from the provider block
    and the environment, their validation, the supported-version check, and
    the resource kinds the provider registers. */
module Provider {
  import opened Framework

  const DefaultRequestTimeout: Int32 := 10

  /** The versions the provider was tested against (4.0.4 is not among them). */
  const SupportedVersions: seq<string> :=
    ["4.0.0", "4.0.1", "4.0.2", "4.0.3", "4.0.5", "4.0.6", "4.0.7", "4.0.8", "4.0.9", "4.0.10"]

  const InvalidTimeoutSummary: string := "Invalid Request Timeout environment variable."
  const MissingTokenSummary: string := "Missing API Token Configuration"
  const MissingUrlSummary: string := "Missing server URL configuration."
  const ClientErrorSummary: string := "Error creating netbox client."
  const StatusErrorSummary: string := "Error getting netbox status."
  const UnsupportedVersionSummary: string := "Possibly unsupported Netbox version"

  /** netboxProviderModel, the attributes `Configure` reads. */
  datatype ProviderModel = ProviderModel(
    apiToken: Option<string>,
    serverUrl: Option<string>,
    skipVersionCheck: Option<bool>,
    requestTimeout: Option<Int32>)

  /** NETBOX_API_TOKEN, NETBOX_SERVER_URL and NETBOX_REQUEST_TIMEOUT; an unset
      variable reads as "". */
  datatype Environment = Environment(apiToken: string, serverUrl: string, requestTimeout: string)

  /** Config, the settings handed to the client constructor. */
  datatype ClientConfig = ClientConfig(apiToken: string, serverUrl: string, requestTimeout: Int32)

  /** The answer of the status call that reports the NetBox version. */
  datatype StatusAnswer = StatusFailed(message: string) | StatusOk(version: string)

  /** What `Configure` leaves behind: the settings it built, its
      diagnostics, whether it asked for the version, and whether it reached
      the end and stored the client. */
  datatype Configuration = Configuration(
    config: ClientConfig,
    diags: seq<Diagnostic>,
    statusQueried: bool,
    clientStored: bool)

  // ---- strconv.ParseInt(s, 10, 32) ----

  const MaxUint32: nat := 0xFFFF_FFFF

  predicate IsDigit(c: char) {
    '0' <= c <= '9'
  }

  function DigitValue(c: char): nat
    requires IsDigit(c)
  {
    c as int - '0' as int
  }

  /** The outcome of `ParseUint(s, 10, 32)` on the unsigned part. */
  datatype UintParse = UintOk(n: nat) | UintSyntax | UintRange

  /** The digit scan of ParseUint from the accumulated value `n`: a non-digit
      is a syntax error, and exceeding the 32-bit maximum is a range error as
      soon as it happens. */
  function Scan(s: string, n: nat): (r: UintParse)
    requires n <= MaxUint32
    ensures r.UintOk? ==> r.n <= MaxUint32
    decreases |s|
  {
    if s == [] then UintOk(n)
    else if !IsDigit(s[0]) then UintSyntax
    else
      var n1 := n * 10 + DigitValue(s[0]);
      if n1 > MaxUint32 then UintRange else Scan(s[1..], n1)
  }

  function ParseUint32(s: string): (r: UintParse)
    ensures r.UintOk? ==> r.n <= MaxUint32
  {
    if s == [] then UintSyntax else Scan(s, 0)
  }

  /** The value ParseInt returns and whether it returned an error. */
  datatype IntParse = IntParse(value: Int32, ok: bool)

  // Reference reading of a decimal integer, independent of the scan.

  predicate AllDigits(s: string) {
    forall i :: 0 <= i < |s| ==> IsDigit(s[i])
  }

  /** The number the digits `s` denote when they follow digits worth `p`. */
  function Fold(s: string, p: nat): (r: nat)
    requires AllDigits(s)
    ensures r >= p
  {
    if s == [] then p else Fold(s[1..], p * 10 + DigitValue(s[0]))
  }

  function Magnitude(s: string): nat
    requires AllDigits(s)
  {
    Fold(s, 0)
  }

  /** The length of the run of digits `s` starts with. */
  function DigitRun(s: string): (k: nat)
    ensures k <= |s| && AllDigits(s[..k])
    ensures k < |s| ==> !IsDigit(s[k])
  {
    if s == [] || !IsDigit(s[0]) then 0
    else
      var k := 1 + DigitRun(s[1..]);
      assert forall i :: 1 <= i < k ==> s[..k][i] == s[1..][..k - 1][i - 1];
      k
  }

  /** `s` without its leading sign, if any. */
  function Unsigned(s: string): string {
    if s != [] && (s[0] == '+' || s[0] == '-') then s[1..] else s
  }

  predicate Negative(s: string) {
    s != [] && s[0] == '-'
  }

  /** `s` is an optional sign followed by at least one digit. */
  predicate IsInteger(s: string) {
    Unsigned(s) != [] && AllDigits(Unsigned(s))
  }

  /** The integer an integer string denotes. */
  function Denoted(s: string): int
    requires IsInteger(s)
  {
    if Negative(s) then 0 - Magnitude(Unsigned(s)) as int else Magnitude(Unsigned(s))
  }

  /** The value of the digits before the first character that is not one. */
  function LeadingValue(s: string): nat {
    var u := Unsigned(s);
    Magnitude(u[..DigitRun(u)])
  }

  /** The scan reads the run of leading digits: a range error once their
      value exceeds the 32-bit maximum, otherwise a syntax error when a
      non-digit follows, otherwise their value. */
  lemma {:induction false} ScanReadsDigitRun(s: string, p: nat)
    requires p <= MaxUint32
    ensures var k := DigitRun(s);
            Scan(s, p) == if Fold(s[..k], p) > MaxUint32 then UintRange
                          else if k < |s| then UintSyntax
                          else UintOk(Fold(s[..k], p))
    decreases |s|
  {
    var k := DigitRun(s);
    if s == [] || !IsDigit(s[0]) {
      assert s[..k] == [];
    } else {
      var n1 := p * 10 + DigitValue(s[0]);
      assert s[..k][0] == s[0];
      assert s[..k][1..] == s[1..][..k - 1];
      assert Fold(s[..k], p) == Fold(s[1..][..k - 1], n1);
      if n1 <= MaxUint32 {
        ScanReadsDigitRun(s[1..], n1);
      }
    }
  }

  /** `strconv.ParseInt(s, 10, 32)`: the sign, then `ParseUint(s, 10, 32)`
      on the rest, then the check against the signed range. */
  function ParseInt32(s: string): (r: IntParse)
    ensures !r.ok ==> r.value == 0 || r.value == MinInt32 || r.value == MaxInt32
  {
    if s == [] then IntParse(0, false)
    else
      var neg := s[0] == '-';
      var digits := if s[0] == '+' || s[0] == '-' then s[1..] else s;
      match ParseUint32(digits)
      case UintSyntax => IntParse(0, false)
      case UintRange => IntParse(if neg then MinInt32 else MaxInt32, false)
      case UintOk(u) =>
        if !neg && u > MaxInt32 then IntParse(MaxInt32, false)
        else if neg && u > -MinInt32 then IntParse(MinInt32, false)
        else IntParse(if neg then -(u as int) else u as int, true)
  }

  /** What ParseInt32 computes, against the reference reading: an integer
      parses exactly when it fits in 32 bits and is otherwise clamped to the
      bound on its sign's side; anything else fails, with value 0 unless the
      digits before the offending character already overflowed, in which case
      the range error comes first. */
  lemma ParseInt32Meaning(s: string)
    ensures var r := ParseInt32(s);
            && (IsInteger(s) ==> (r.ok <==> MinInt32 <= Denoted(s) <= MaxInt32))
            && (IsInteger(s) && r.ok ==> r.value == Denoted(s))
            && (IsInteger(s) && !r.ok ==> r.value == (if Denoted(s) < 0 then MinInt32 else MaxInt32))
            && (!IsInteger(s) ==> !r.ok)
            && (!IsInteger(s) && LeadingValue(s) <= MaxUint32 ==> r.value == 0)
            && (LeadingValue(s) > MaxUint32 ==> r == IntParse(if Negative(s) then MinInt32 else MaxInt32, false))
  {
    var digits := Unsigned(s);
    ScanReadsDigitRun(digits, 0);
    assert digits[..|digits|] == digits;
  }

  /** Decimal digits of a natural number, most significant first. */
  function Digits(n: nat): (s: string)
    ensures |s| >= 1
    ensures forall i :: 0 <= i < |s| ==> IsDigit(s[i])
  {
    var d := ['0' + (n % 10) as char];
    if n < 10 then d else Digits(n / 10) + d
  }

  /** The canonical decimal form of an integer, as `strconv.Itoa` writes it. */
  function FormatInt(v: int): string {
    if v < 0 then "-" + Digits(-v) else Digits(v)
  }

  /** Scanning the digits of `n` after the prefix value `p` yields the
      number the digits of `p` followed by those of `n` denote. */
  lemma {:induction false} ScanDigits(n: nat, p: nat)
    requires p * Power10(|Digits(n)|) + n <= MaxUint32
    ensures Scan(Digits(n), p) == UintOk(p * Power10(|Digits(n)|) + n)
    decreases n
  {
    var d := ['0' + (n % 10) as char];
    assert DigitValue(d[0]) == n % 10;
    if n < 10 {
      assert Digits(n) == d;
      assert Digits(n)[1..] == [];
    } else {
      var m := p * Power10(|Digits(n / 10)|) + n / 10;
      ShiftDigit(p, Power10(|Digits(n / 10)|), n);
      ScanDigits(n / 10, p);
      ScanAppend(Digits(n / 10), d, p);
      assert d[1..] == [];
    }
  }

  /** The arithmetic of appending the last decimal digit of `n`. */
  lemma ShiftDigit(p: nat, pow: nat, n: nat)
    ensures p * (10 * pow) + n == (p * pow + n / 10) * 10 + n % 10
    ensures p * pow + n / 10 <= p * (10 * pow) + n
  {
  }

  /** Scanning a concatenation scans the second part from where the first
      one ended. */
  lemma {:induction false} ScanAppend(a: string, b: string, p: nat)
    requires p <= MaxUint32
    requires Scan(a, p).UintOk?
    ensures Scan(a + b, p) == Scan(b, Scan(a, p).n)
    decreases |a|
  {
    if a == [] {
      assert a + b == b;
    } else {
      assert (a + b)[0] == a[0];
      assert (a + b)[1..] == a[1..] + b;
      ScanAppend(a[1..], b, p * 10 + DigitValue(a[0]));
    }
  }

  function Power10(k: nat): (r: nat)
    ensures r >= 1
  {
    if k == 0 then 1 else 10 * Power10(k - 1)
  }

  /** Parsing reads back every 32-bit value in its canonical decimal form. */
  lemma ParseFormatRoundTrip(v: Int32)
    ensures ParseInt32(FormatInt(v)) == IntParse(v, true)
  {
    var n: nat := if v < 0 then -(v as int) else v as int;
    var s := FormatInt(v);
    assert Digits(n)[0] != '-' && Digits(n)[0] != '+' by { assert IsDigit(Digits(n)[0]); }
    if v < 0 {
      assert s[1..] == Digits(n);
    } else {
      assert s == Digits(n);
    }
    ScanDigits(n, 0);
  }

  /** A few values of NETBOX_REQUEST_TIMEOUT and what they parse to. */
  lemma ParseExamples()
    ensures ParseInt32("+7") == IntParse(7, true)
    ensures ParseInt32("-") == IntParse(0, false)
    ensures ParseInt32("abc") == IntParse(0, false)
    ensures ParseInt32("-1x") == IntParse(0, false)
  {
    ParseInt32Meaning("+7");
    ParseInt32Meaning("-");
    ParseInt32Meaning("abc");
    ParseInt32Meaning("-1x");
    assert !IsDigit("abc"[0]);
    assert !IsDigit("-1x"[2]);
  }

  // ---- Configure ----

  /** The timeout taken from the environment, and its diagnostics: the
      default when the variable is empty, else the parsed value, with an
      error when parsing failed. */
  function EnvironmentTimeout(s: string): (r: (Int32, seq<Diagnostic>))
    ensures s == "" ==> r.0 == DefaultRequestTimeout
    ensures s != "" ==> r.0 == ParseInt32(s).value
    ensures HasError(r.1) <==> s != "" && !ParseInt32(s).ok
    ensures !HasWarning(r.1)
    ensures forall summary :: Reports(r.1, summary) <==> summary == InvalidTimeoutSummary && HasError(r.1)
  {
    // "TODO" is the detail text the program itself attaches.
    var d := ErrorDiag(InvalidTimeoutSummary, "TODO");
    SingleDiagnostic(d);
    if s == "" then (DefaultRequestTimeout, [])
    else
      var p := ParseInt32(s);
      (p.value, if p.ok then [] else [d])
  }

  /** The settings and diagnostics gathered before the client is built. */
  datatype Settings = Settings(config: ClientConfig, diags: seq<Diagnostic>)

  /** The part of Configure before the client is built: each of token, URL
      and timeout comes from the configuration when it is non-null and from
      the environment otherwise; an empty token or URL and an unparsable
      environment timeout are reported, independently of each other. */
  function ResolveSettings(data: ProviderModel, env: Environment): (r: Settings)
    ensures data.apiToken.Some? ==> r.config.apiToken == data.apiToken.value
    ensures data.apiToken.None? ==> r.config.apiToken == env.apiToken
    ensures data.serverUrl.Some? ==> r.config.serverUrl == data.serverUrl.value
    ensures data.serverUrl.None? ==> r.config.serverUrl == env.serverUrl
    ensures data.requestTimeout.Some? ==> r.config.requestTimeout == data.requestTimeout.value
    ensures data.requestTimeout.None? && env.requestTimeout == "" ==> r.config.requestTimeout == DefaultRequestTimeout
    ensures data.requestTimeout.None? && env.requestTimeout != "" ==> r.config.requestTimeout == ParseInt32(env.requestTimeout).value
    ensures Reports(r.diags, MissingTokenSummary) <==> r.config.apiToken == ""
    ensures Reports(r.diags, MissingUrlSummary) <==> r.config.serverUrl == ""
    ensures Reports(r.diags, InvalidTimeoutSummary) <==> env.requestTimeout != "" && !ParseInt32(env.requestTimeout).ok
    ensures forall s :: Reports(r.diags, s) ==> s == MissingTokenSummary || s == MissingUrlSummary || s == InvalidTimeoutSummary
    ensures !HasWarning(r.diags)
    ensures HasError(r.diags) <==>
              || r.config.apiToken == "" || r.config.serverUrl == ""
              || (env.requestTimeout != "" && !ParseInt32(env.requestTimeout).ok)
  {
    var (envTimeout, timeoutDiags) := EnvironmentTimeout(env.requestTimeout);
    var apiToken := data.apiToken.GetOr(env.apiToken);
    var serverUrl := data.serverUrl.GetOr(env.serverUrl);
    // The detail texts are the program's own placeholder literals.
    var tokenDiag := ErrorDiag(MissingTokenSummary, "TODO DETAIL");
    var urlDiag := ErrorDiag(MissingUrlSummary, "TODO details");
    var tokenDiags := if apiToken == "" then [tokenDiag] else [];
    var urlDiags := if serverUrl == "" then [urlDiag] else [];
    SummariesDistinct();
    SingleDiagnostic(tokenDiag);
    SingleDiagnostic(urlDiag);
    AppendDiagnostics(timeoutDiags, tokenDiags);
    AppendDiagnostics(timeoutDiags + tokenDiags, urlDiags);
    Settings(ClientConfig(apiToken, serverUrl, data.requestTimeout.GetOr(envTimeout)),
             timeoutDiags + tokenDiags + urlDiags)
  }

  /** The six summaries Configure can report are pairwise different (their
      lengths already tell them apart). */
  lemma SummariesDistinct()
    ensures MissingTokenSummary != MissingUrlSummary && MissingTokenSummary != InvalidTimeoutSummary
    ensures MissingUrlSummary != InvalidTimeoutSummary
    ensures ClientErrorSummary != StatusErrorSummary && ClientErrorSummary != UnsupportedVersionSummary
    ensures StatusErrorSummary != UnsupportedVersionSummary
    ensures |MissingTokenSummary| == 31 && |MissingUrlSummary| == 33 && |InvalidTimeoutSummary| == 45
    ensures |ClientErrorSummary| == 29 && |StatusErrorSummary| == 28 && |UnsupportedVersionSummary| == 35
  {
  }

  /** A timeout variable that is set but is not an integer, or is one
      outside the 32-bit range, is reported; any other set value is not. */
  lemma InvalidTimeoutReported(s: string)
    requires s != ""
    ensures HasError(EnvironmentTimeout(s).1) <==> !IsInteger(s) || !(MinInt32 <= Denoted(s) <= MaxInt32)
    ensures !HasError(EnvironmentTimeout(s).1) ==> EnvironmentTimeout(s).0 == Denoted(s)
  {
    ParseInt32Meaning(s);
  }

  /** Configure. `clientError` is the error `Config.Client()` returns, if
      any; `status` is the answer of the status call. */
  function Configure(data: ProviderModel, env: Environment, clientError: Option<string>, status: StatusAnswer): (r: Configuration)
    ensures r.config == ResolveSettings(data, env).config
    // the version is asked for only with a client and without the skip flag
    ensures r.statusQueried <==> clientError.None? && !data.skipVersionCheck.GetOr(false)
    ensures r.clientStored <==> clientError.None? && (r.statusQueried ==> status.StatusOk?)
    // the diagnostics gathered before the client are all kept
    ensures forall s :: Reports(ResolveSettings(data, env).diags, s) ==> Reports(r.diags, s)
    ensures Reports(r.diags, ClientErrorSummary) <==> clientError.Some?
    ensures Reports(r.diags, StatusErrorSummary) <==> r.statusQueried && status.StatusFailed?
    // and nothing is reported beyond them and the three named here
    ensures forall s :: Reports(r.diags, s) <==>
              || Reports(ResolveSettings(data, env).diags, s)
              || (s == ClientErrorSummary && clientError.Some?)
              || (s == StatusErrorSummary && r.statusQueried && status.StatusFailed?)
              || (s == UnsupportedVersionSummary && HasWarning(r.diags))
    ensures HasWarning(r.diags) <==> r.statusQueried && status.StatusOk? && status.version !in SupportedVersions
    ensures HasError(r.diags) <==>
              || HasError(ResolveSettings(data, env).diags)
              || clientError.Some?
              || (r.statusQueried && status.StatusFailed?)
  {
    var settings := ResolveSettings(data, env);
    var config := settings.config;
    var diags := settings.diags;
    SummariesDistinct();
    if clientError.Some? then
      var d := ErrorDiag(ClientErrorSummary, clientError.value);
      SingleDiagnostic(d);
      AppendDiagnostics(diags, [d]);
      Configuration(config, diags + [d], false, false)
    else if data.skipVersionCheck.GetOr(false) then
      Configuration(config, diags, false, true)
    else
      match status
      case StatusFailed(message) =>
        var d := ErrorDiag(StatusErrorSummary, message);
        SingleDiagnostic(d);
        AppendDiagnostics(diags, [d]);
        Configuration(config, diags + [d], true, false)
      case StatusOk(version) =>
        if version in SupportedVersions then Configuration(config, diags, true, true)
        else
          var d := Diagnostic(Warning, UnsupportedVersionSummary, version);
          SingleDiagnostic(d);
          AppendDiagnostics(diags, [d]);
          Configuration(config, diags + [d], true, true)
  }

  /** An unsupported version never turns an error-free configuration into a
      failing one. */
  lemma UnsupportedVersionOnlyWarns(data: ProviderModel, env: Environment, version: string)
    requires version !in SupportedVersions
    requires data.skipVersionCheck.GetOr(false) == false
    ensures var r := Configure(data, env, None, StatusOk(version));
            HasError(r.diags) == HasError(Configure(data, env, None, StatusOk(SupportedVersions[0])).diags)
            && HasWarning(r.diags)
  {
  }

  /** The resource kinds the provider can serve. */
  datatype ResourceKind = SiteKind | VirtualMachineKind

  /** Resources: only the site is registered; the virtual machine resource
      exists but cannot be reached through this provider. */
  function Resources(): (r: seq<ResourceKind>)
    ensures |r| == 1 && SiteKind in r && VirtualMachineKind !in r
  {
    [SiteKind]
  }
}

=== FILE: site_lifecycle.dfy ===
/** Create, Read, Update and Delete of the site resource
    (netbox/resource_netbox_site_v6.go) against the remote store. Each
    operation that the source gets wrong has an `AsWritten` twin that models
    the code as it stands; the operations without the suffix are the
    corrected ones. */
module SiteLifecycle {
  import opened Framework
  import opened Api
  import Tags
  import opened SiteMapper

  const CreateFailedSummary: string := "Error while creating the Site"
  const ReadFailedSummary: string := "Error while reading the Site"
  const UpdateFailedSummary: string := "Error while updating the Site"
  const DeleteFailedSummary: string := "Unable to delete the site."

  /** The identifier a tracked state addresses: `ValueInt64()` of its ID. */
  function TrackedId(state: SiteModel): Int64 {
    state.id.GetOr(0)
  }

  /** Create: map the plan, send it, and track the plan under the identifier
      the remote assigned. A tag that does not resolve stops the operation
      before any remote call. */
  function Create(plan: SiteModel, api: Tags.TagApi, store: Store, answer: CreateAnswer): (r: Outcome<SiteModel>)
    requires answer.Assigned? ==> answer.id !in store.sites
    ensures !r.Removed?
    ensures r.Wrote? <==> GenerateWritableSite(plan, api).Mapped? && answer.Assigned?
    ensures r.Wrote? ==>
              && r.state == plan.(id := Some(answer.id))
              && r.store.sites == store.sites[answer.id := StoredSite(GenerateWritableSite(plan, api).site)]
              && r.store.vms == store.vms
    ensures r.Failed? ==> r.store == store && HasError(r.diags)
    ensures r.Panicked? <==> GenerateWritableSite(plan, api).MappingCrashed?
  {
    match GenerateWritableSite(plan, api)
    case MappingFailed(e) =>
      assert [e][0] == e;
      Failed([e], store)
    case MappingCrashed => Panicked("index out of range")
    case Mapped(w) =>
      var call := SitesCreate(store, w, answer);
      match call.result
      case Err(e) =>
        var d := ErrorDiag(CreateFailedSummary, e.message);
        assert [d][0] == d;
        Failed([d], call.store)
      case Ok(id) => Wrote(plan.(id := Some(id)), call.store)
  }

  /** Create as written: the payload drops every tag and ASN, and a tag that
      does not resolve is never reported. */
  function CreateAsWritten(plan: SiteModel, api: Tags.TagApi, store: Store, answer: CreateAnswer): (r: Outcome<SiteModel>)
    requires answer.Assigned? ==> answer.id !in store.sites
    ensures r.Wrote? || r.Failed?
    ensures r.Wrote? <==> answer.Assigned?
    ensures r.Wrote? ==>
              && r.state == plan.(id := Some(answer.id))
              && r.store.sites == store.sites[answer.id := StoredSite(GenerateWritableSiteAsWritten(plan, api))]
              && r.store.vms == store.vms
    ensures r.Failed? ==> r.store == store && HasError(r.diags)
  {
    var call := SitesCreate(store, GenerateWritableSiteAsWritten(plan, api), answer);
    match call.result
    case Err(e) =>
      var d := ErrorDiag(CreateFailedSummary, e.message);
      assert [d][0] == d;
      Failed([d], call.store)
    case Ok(id) => Wrote(plan.(id := Some(id)), call.store)
  }

  /** A tag name, anywhere in the set, that matches no NetBox tag: the
      written Create still creates the site, with no tags; the corrected one
      does not create it, and when it reports the failure the remote is left
      untouched. */
  lemma UnresolvedTagStopsOnlyCorrectedCreate(plan: SiteModel, api: Tags.TagApi, store: Store, id: Int64, k: nat)
    requires id !in store.sites
    requires plan.tags.Some? && k < |plan.tags.value|
    requires Tags.Classify(api(Tags.QueryFor(plan.tags.value[k]))).NoMatch?
    ensures CreateAsWritten(plan, api, store, Assigned(id)).Wrote?
    ensures StoredSite(GenerateWritableSiteAsWritten(plan, api)).tags == []
    ensures !Create(plan, api, store, Assigned(id)).Wrote?
    ensures Create(plan, api, store, Assigned(id)).Failed? ==> Create(plan, api, store, Assigned(id)).store == store
  {
    Tags.MissingTagAborts(api, plan.tags.value, k);
  }

  /** Read as evidently intended: a 404 drops the resource without error,
      another failure is reported and leaves the tracked state as it was,
      and a found site is copied into the state. `noAsns` is how a site
      without ASNs reads back. */
  function Read(state: SiteModel, store: Store, fault: Option<ApiError>, noAsns: NoAsns): (r: Outcome<SiteModel>)
    ensures !r.Panicked?
    ensures r.Removed? <==> SitesRead(store, TrackedId(state), fault).Err? && SitesRead(store, TrackedId(state), fault).error.IsNotFound()
    ensures r.Wrote? <==> SitesRead(store, TrackedId(state), fault).Ok?
    ensures r.Wrote? ==> r.state == ApplyRemoteSite(state, SitesRead(store, TrackedId(state), fault).value, noAsns)
    ensures r.Failed? ==> HasError(r.diags)
    ensures !r.Panicked? ==> r.store == store
  {
    match SitesRead(store, TrackedId(state), fault)
    case Err(e) =>
      if e.IsNotFound() then Removed(store)
      else
        var d := ErrorDiag(ReadFailedSummary, e.message);
        assert [d][0] == d;
        Failed([d], store)
    case Ok(site) => Wrote(ApplyRemoteSite(state, site, noAsns), store)
  }

  /** Read as written: only the client's typed 404 response is handled; any
      other failure falls through to `res.GetPayload()` on a nil response. */
  function ReadAsWritten(state: SiteModel, store: Store, fault: Option<ApiError>, noAsns: NoAsns): (r: Outcome<SiteModel>)
    ensures !r.Failed?
    ensures r.Removed? <==> SitesRead(store, TrackedId(state), fault).Err? && SitesRead(store, TrackedId(state), fault).error.IsNotFound()
    ensures r.Panicked? <==> SitesRead(store, TrackedId(state), fault).Err? && !SitesRead(store, TrackedId(state), fault).error.IsNotFound()
    ensures r.Wrote? ==> r.state == ApplyRemoteSiteAsWritten(state, SitesRead(store, TrackedId(state), fault).value, noAsns)
    ensures !r.Panicked? ==> r.store == store
  {
    match SitesRead(store, TrackedId(state), fault)
    case Err(e) => if e.IsNotFound() then Removed(store) else Panicked(NilDereference)
    case Ok(site) => Wrote(ApplyRemoteSiteAsWritten(state, site, noAsns), store)
  }

  /** A site deleted behind the provider's back: Read drops it from the
      tracked state and reports nothing. */
  lemma ReadOfVanishedSiteRemovesState(state: SiteModel, store: Store, noAsns: NoAsns)
    requires TrackedId(state) !in store.sites
    ensures Read(state, store, None, noAsns) == Removed(store)
    ensures ReadAsWritten(state, store, None, noAsns) == Removed(store)
  {
  }

  /** A transport failure on Read: the written code crashes where the
      corrected one reports an error. */
  lemma ReadTransportFailure(state: SiteModel, store: Store, message: string, noAsns: NoAsns)
    ensures ReadAsWritten(state, store, Some(Transport(message)), noAsns).Panicked?
    ensures Read(state, store, Some(Transport(message)), noAsns).Failed?
  {
  }

  /** Update as evidently intended: send the plan, and on success track the
      plan under the existing identifier. */
  function Update(plan: SiteModel, state: SiteModel, api: Tags.TagApi, store: Store, fault: Option<ApiError>): (r: Outcome<SiteModel>)
    ensures !r.Removed?
    ensures r.Wrote? <==>
              GenerateWritableSite(plan, api).Mapped? && fault.None? && TrackedId(state) in store.sites
    ensures r.Wrote? ==>
              && r.state == plan.(id := state.id)
              && r.store == store.(sites := store.sites[TrackedId(state) := StoredSite(GenerateWritableSite(plan, api).site)])
    ensures r.Failed? ==> r.store == store && HasError(r.diags)
    ensures r.Panicked? <==> GenerateWritableSite(plan, api).MappingCrashed?
  {
    match GenerateWritableSite(plan, api)
    case MappingFailed(e) =>
      assert [e][0] == e;
      Failed([e], store)
    case MappingCrashed => Panicked("index out of range")
    case Mapped(w) =>
      var call := SitesPartialUpdate(store, TrackedId(state), w, fault);
      match call.result
      case Err(e) =>
        var d := ErrorDiag(UpdateFailedSummary, e.message);
        assert [d][0] == d;
        Failed([d], call.store)
      case Ok(_) => Wrote(plan.(id := state.id), call.store)
  }

  /** Update as written: the payload is built from the prior state, and that
      same state is written back. */
  function UpdateAsWritten(plan: SiteModel, state: SiteModel, api: Tags.TagApi, store: Store, fault: Option<ApiError>): (r: Outcome<SiteModel>)
    ensures r.Wrote? || r.Failed?
    ensures r.Wrote? <==> fault.None? && TrackedId(state) in store.sites
    ensures r.Wrote? ==>
              && r.state == state
              && r.store == store.(sites := store.sites[TrackedId(state) := StoredSite(GenerateWritableSiteAsWritten(state, api))])
    ensures r.Failed? ==> r.store == store && HasError(r.diags)
  {
    var data := state;
    var call := SitesPartialUpdate(store, TrackedId(data), GenerateWritableSiteAsWritten(data, api), fault);
    match call.result
    case Err(e) =>
      var d := ErrorDiag(UpdateFailedSummary, e.message);
      assert [d][0] == d;
      Failed([d], call.store)
    case Ok(_) => Wrote(data, call.store)
  }

  /** The written Update does not depend on the plan at all: a change in the
      configuration never reaches the remote or the tracked state. */
  lemma UpdateAsWrittenIgnoresPlan(plan1: SiteModel, plan2: SiteModel, state: SiteModel, api: Tags.TagApi, store: Store, fault: Option<ApiError>)
    ensures UpdateAsWritten(plan1, state, api, store, fault) == UpdateAsWritten(plan2, state, api, store, fault)
  {
  }

  /** Removing the description from the configuration: the corrected Update
      tracks it as null, the written one keeps the old value. */
  lemma UpdateDropsDescriptionOnlyWhenCorrected(plan: SiteModel, state: SiteModel, api: Tags.TagApi, store: Store)
    requires plan.description.None? && state.description.Some?
    requires TrackedId(state) in store.sites
    requires GenerateWritableSite(plan, api).Mapped?
    ensures Update(plan, state, api, store, None).state.description.None?
    ensures UpdateAsWritten(plan, state, api, store, None).state.description == state.description
  {
  }

  /** Delete as evidently intended: a 404 counts as already deleted, every
      other failure is reported and keeps the resource tracked. */
  function Delete(state: SiteModel, store: Store, fault: Option<ApiError>): (r: Outcome<SiteModel>)
    ensures r.Removed? || r.Failed?
    ensures r.Removed? <==> SitesDelete(store, TrackedId(state), fault).result.Ok?
                            || SitesDelete(store, TrackedId(state), fault).result.error.IsNotFound()
    ensures r.Removed? && fault.None? ==> TrackedId(state) !in r.store.sites
    ensures r.Removed? && fault.None? ==> r.store == store.(sites := store.sites - {TrackedId(state)})
    ensures r.Removed? && fault.Some? ==> r.store == store
    ensures r.Failed? ==> r.store == store && HasError(r.diags)
  {
    var call := SitesDelete(store, TrackedId(state), fault);
    match call.result
    case Ok(_) => Removed(call.store)
    case Err(e) =>
      if e.IsNotFound() then Removed(call.store)
      else
        var d := ErrorDiag(DeleteFailedSummary, e.message);
        assert [d][0] == d;
        Failed([d], call.store)
  }

  /** Delete as written: only the client's typed error response is checked;
      any other failure returns no diagnostic, so the host drops the
      resource while it still exists remotely. */
  function DeleteAsWritten(state: SiteModel, store: Store, fault: Option<ApiError>): (r: Outcome<SiteModel>)
    ensures r.Removed? || r.Failed?
    ensures r.Failed? <==> SitesDelete(store, TrackedId(state), fault).result.Err?
                           && SitesDelete(store, TrackedId(state), fault).result.error.Default?
                           && !SitesDelete(store, TrackedId(state), fault).result.error.IsNotFound()
    ensures r.Removed? && fault.None? ==> r.store == store.(sites := store.sites - {TrackedId(state)})
    ensures r.Removed? && fault.Some? ==> r.store == store
    ensures r.Failed? ==> r.store == store && HasError(r.diags)
  {
    var call := SitesDelete(store, TrackedId(state), fault);
    match call.result
    case Ok(_) => Removed(call.store)
    case Err(e) =>
      if e.Default? then
        if e.code == 404 then Removed(call.store)
        else
          var d := ErrorDiag(DeleteFailedSummary, e.message);
          assert [d][0] == d;
          Failed([d], call.store)
      else Removed(call.store)
  }

  /** Deleting a site that is already gone succeeds, in both versions. */
  lemma DeleteIsIdempotent(state: SiteModel, store: Store)
    requires TrackedId(state) !in store.sites
    ensures Delete(state, store, None) == Removed(store)
    ensures DeleteAsWritten(state, store, None) == Removed(store)
  {
  }

  /** A transport failure on Delete: the written code drops the resource
      from the tracked state though the remote still holds it. */
  lemma DeleteAsWrittenLosesTrackedSite(state: SiteModel, store: Store, message: string)
    requires TrackedId(state) in store.sites
    ensures DeleteAsWritten(state, store, Some(Transport(message))) == Removed(store)
    ensures TrackedId(state) in DeleteAsWritten(state, store, Some(Transport(message))).store.sites
    ensures Delete(state, store, Some(Transport(message))).Failed?
  {
  }

  /** Create followed by Read: the tracked state is the plan, with the
      identifier, after the round trip of its attributes through the remote. */
  lemma CreateThenRead(plan: SiteModel, api: Tags.TagApi, store: Store, id: Int64, noAsns: NoAsns)
    requires id !in store.sites
    requires GenerateWritableSite(plan, api).Mapped?
    ensures var created := Create(plan, api, store, Assigned(id));
            created.Wrote?
            && Read(created.state, created.store, None, noAsns)
               == Wrote(AfterRoundTrip(plan, noAsns).(id := Some(id)), created.store)
  {
  }

  /** Update followed by Read, in a store that replaces the whole record on
      update: the tracked state is the new plan, under the existing
      identifier, after the round trip of its attributes; an attribute
      removed from the configuration therefore reads back null. A remote that
      skipped the "" fields of a partial update would keep the old values. */
  lemma UpdateThenRead(plan: SiteModel, state: SiteModel, api: Tags.TagApi, store: Store, noAsns: NoAsns)
    requires TrackedId(state) in store.sites
    requires GenerateWritableSite(plan, api).Mapped?
    ensures var u := Update(plan, state, api, store, None);
            u.Wrote?
            && Read(u.state, u.store, None, noAsns) == Wrote(AfterRoundTrip(plan, noAsns).(id := state.id), u.store)
    ensures var u := Update(plan, state, api, store, None);
            var read := Read(u.state, u.store, None, noAsns).state;
            && (plan.description.None? ==> read.description.None?)
            && (plan.physicalAddress.None? ==> read.physicalAddress.None?)
            && (plan.shippingAddress.None? ==> read.shippingAddress.None?)
            && (plan.latitude.None? ==> read.latitude.None?)
            && (plan.longitude.None? ==> read.longitude.None?)
  {
  }
}

=== FILE: site_mapper.dfy ===
/** The site attribute mapper (netbox/resource_netbox_site_v6.go): the
    outbound mapping `generateWritableSite` from the plan or state model to
    the write payload, and the inbound field-by-field copy that `Read` makes
    from the read payload into the tracked state. */
module SiteMapper {
  import opened Framework
  import opened Api
  import Convert
  import Tags

  /** netboxSiteModel. The two set attributes hold their elements in the
      framework's iteration order. */
  datatype SiteModel = SiteModel(
    id: Option<Int64>,
    name: Option<string>,
    slug: Option<string>,
    status: Option<string>,
    description: Option<string>,
    facility: Option<string>,
    longitude: Option<Float64>,
    latitude: Option<Float64>,
    physicalAddress: Option<string>,
    shippingAddress: Option<string>,
    regionId: Option<Int64>,
    groupId: Option<Int64>,
    tenantId: Option<Int64>,
    timezone: Option<string>,
    asnIds: Option<seq<Int64>>,
    tags: Option<seq<string>>)

  /** The scalar and reference fields of the payload (lines 41-82 and 90-92):
      required pointers copied as they are, `Status` by `ValueString()`, each
      optional field copied only when non-null. The list fields are left nil
      here and set by the callers. */
  function ScalarPayload(data: SiteModel): WritableSite {
    WritableSite(
      name := data.name,
      slug := data.slug,
      status := data.status.GetOr(""),
      description := data.description.GetOr(""),
      facility := data.facility.GetOr(""),
      longitude := data.longitude,
      latitude := data.latitude,
      physicalAddress := data.physicalAddress.GetOr(""),
      shippingAddress := data.shippingAddress.GetOr(""),
      region := data.regionId,
      group := data.groupId,
      tenant := data.tenantId,
      tags := None,
      timeZone := data.timezone,
      asns := None)
  }

  /** The outcome of the outbound mapping: a payload, or the first tag that
      did not resolve, or the crash of the tag lookup. */
  datatype Mapping = Mapped(site: WritableSite) | MappingFailed(error: Diagnostic) | MappingCrashed

  /** generateWritableSite as evidently intended: the tag and ASN sets are
      converted element by element, and a tag resolution error reaches the
      caller. */
  function GenerateWritableSite(data: SiteModel, api: Tags.TagApi): (m: Mapping)
    ensures m.Mapped? <==>
              data.tags.None? || Tags.GetNestedTagList(api, data.tags.value).Resolved?
    ensures m.Mapped? ==>
              var w := m.site;
              // required fields, whatever the optional ones hold
              && w.name == data.name && w.slug == data.slug
              && (data.status.Some? ==> w.status == data.status.value)
              && (data.status.None? ==> w.status == "")
              // optional strings: the value when non-null, else ""
              && (data.description.Some? ==> w.description == data.description.value)
              && (data.description.None? ==> w.description == "")
              && (data.facility.Some? ==> w.facility == data.facility.value)
              && (data.facility.None? ==> w.facility == "")
              && (data.physicalAddress.Some? ==> w.physicalAddress == data.physicalAddress.value)
              && (data.physicalAddress.None? ==> w.physicalAddress == "")
              && (data.shippingAddress.Some? ==> w.shippingAddress == data.shippingAddress.value)
              && (data.shippingAddress.None? ==> w.shippingAddress == "")
              // optional pointers and references: nil exactly when null
              && w.longitude == data.longitude && w.latitude == data.latitude
              && w.region == data.regionId && w.group == data.groupId && w.tenant == data.tenantId
              && w.timeZone == data.timezone
              // lists: never nil; empty for a null set
              && w.tags.Some? && w.asns.Some?
              && (data.tags.None? ==> w.tags.value == [])
              && (data.asnIds.None? ==> w.asns.value == [])
              && (data.asnIds.Some? ==> w.asns.value == data.asnIds.value)
              && (data.tags.Some? ==> |w.tags.value| == |data.tags.value|)
              && (data.tags.Some? ==> w.tags.value == Tags.GetNestedTagList(api, data.tags.value).tags)
    ensures m.MappingFailed? ==> m.error.severity == Error
    ensures m.MappingFailed? <==> data.tags.Some? && Tags.GetNestedTagList(api, data.tags.value).Aborted?
    ensures m.MappingFailed? ==> m.error == Tags.GetNestedTagList(api, data.tags.value).error
    ensures m.MappingCrashed? <==> data.tags.Some? && Tags.GetNestedTagList(api, data.tags.value).Crashed?
  {
    var base := ScalarPayload(data);
    var asns := if data.asnIds.Some? then Convert.ToInt64List(data.asnIds.value) else [];
    if data.tags.None? then
      Mapped(base.(tags := Some([]), asns := Some(asns)))
    else
      var resolution := Tags.GetNestedTagList(api, data.tags.value);
      Tags.ResolvedIffAllUnique(api, data.tags.value);
      Tags.StopsAtFirstFailure(api, data.tags.value);
      match resolution
      case Resolved(tags, _) => Mapped(base.(tags := Some(tags), asns := Some(asns)))
      case Aborted(_, e, _) => MappingFailed(e)
      case Crashed(_) => MappingCrashed
  }

  /** generateWritableSite as written: both list conversions iterate a
      zero-length slice, and whatever the tag resolver reports is lost, so
      the mapping cannot fail. */
  function GenerateWritableSiteAsWritten(data: SiteModel, api: Tags.TagApi): (w: WritableSite)
    ensures w.tags == Some([]) && w.asns == Some([])
    ensures w == ScalarPayload(data).(tags := Some([]), asns := Some([]))
  {
    var tags := if data.tags.Some? then Tags.GetNestedTagListAsWritten(api, data.tags.value) else [];
    var asns := if data.asnIds.Some? then Convert.ToInt64ListAsWritten(data.asnIds.value) else [];
    ScalarPayload(data).(tags := Some(tags), asns := Some(asns))
  }

  /** The written mapper sends the same payload as the intended one, except
      that every tag and every ASN is dropped. */
  lemma AsWrittenDropsTagsAndAsns(data: SiteModel, api: Tags.TagApi)
    requires GenerateWritableSite(data, api).Mapped?
    ensures GenerateWritableSiteAsWritten(data, api)
            == GenerateWritableSite(data, api).site.(tags := Some([]), asns := Some([]))
  {
  }

  /** Nulling any one optional attribute changes only its payload field,
      which falls back to its zero value: "" for a string, nil for a
      pointer or reference. */
  lemma NullingAnOptionalFieldResetsOnlyIt(data: SiteModel, api: Tags.TagApi)
    requires GenerateWritableSite(data, api).Mapped?
    ensures var w := GenerateWritableSite(data, api).site;
            && GenerateWritableSite(data.(description := None), api) == Mapped(w.(description := ""))
            && GenerateWritableSite(data.(facility := None), api) == Mapped(w.(facility := ""))
            && GenerateWritableSite(data.(physicalAddress := None), api) == Mapped(w.(physicalAddress := ""))
            && GenerateWritableSite(data.(shippingAddress := None), api) == Mapped(w.(shippingAddress := ""))
            && GenerateWritableSite(data.(longitude := None), api) == Mapped(w.(longitude := None))
            && GenerateWritableSite(data.(latitude := None), api) == Mapped(w.(latitude := None))
            && GenerateWritableSite(data.(regionId := None), api) == Mapped(w.(region := None))
            && GenerateWritableSite(data.(groupId := None), api) == Mapped(w.(group := None))
            && GenerateWritableSite(data.(tenantId := None), api) == Mapped(w.(tenant := None))
            && GenerateWritableSite(data.(timezone := None), api) == Mapped(w.(timeZone := None))
  {
  }

  /** The inbound copy of `Read` (lines 279-308) as written. The identifier
      and the tags are kept from the prior state; the addresses are stored
      as they come, "" included, and every other field as in
      `ApplyRemoteSite`. */
  function ApplyRemoteSiteAsWritten(state: SiteModel, site: Site, noAsns: NoAsns): (r: SiteModel)
    ensures r.id == state.id && r.tags == state.tags
    ensures r.physicalAddress == Some(site.physicalAddress)
    ensures r.shippingAddress == Some(site.shippingAddress)
    // every other field is copied as in the corrected inbound copy
    ensures r.(physicalAddress := Cleared(site.physicalAddress), shippingAddress := Cleared(site.shippingAddress))
            == ApplyRemoteSite(state, site, noAsns)
  {
    ApplyRemoteSite(state, site, noAsns).(physicalAddress := Some(site.physicalAddress),
                                           shippingAddress := Some(site.shippingAddress))
  }

  /** The optional string a remote "" clears: null for "", else the value. */
  function Cleared(s: string): (r: Option<string>)
    ensures r.None? <==> s == ""
    ensures r.Some? ==> r.value == s
  {
    if s == "" then None else Some(s)
  }

  /** What `types.SetValueFrom` makes of the identifier list that
      `getIDsFromNestedASNList` returns for a site without ASNs: a nil slice
      gives a null set, an empty slice an empty set. That helper is not part
      of this model, so the inbound copy is stated for either behaviour. */
  datatype NoAsns = NullSet | EmptySet

  /** The `asn_ids` set read back from the remote's ASN identifiers. */
  function AsnSet(ids: seq<Int64>, noAsns: NoAsns): (r: Option<seq<Int64>>)
    ensures ids != [] ==> r == Some(ids)
    ensures ids == [] ==> (r.None? <==> noAsns == NullSet) && (r.Some? ==> r.value == [])
  {
    if ids == [] && noAsns == NullSet then None else Some(ids)
  }

  /** The inbound copy of `Read` as evidently intended: the physical and
      shipping addresses map "" back to null instead of storing "". */
  function ApplyRemoteSite(state: SiteModel, site: Site, noAsns: NoAsns): (r: SiteModel)
    // kept from the prior state
    ensures r.id == state.id && r.tags == state.tags
    // always overwritten from the remote
    ensures r.name == site.name && r.slug == site.slug && r.status == site.status
    ensures r.longitude == site.longitude && r.latitude == site.latitude
    ensures r.timezone == site.timeZone
    // the remote's ASNs; none at all read back as the helper makes them
    ensures site.asns != [] ==> r.asnIds == Some(site.asns)
    ensures site.asns == [] ==> r.asnIds == AsnSet([], noAsns)
    // overwritten only when the remote value is non-empty
    ensures site.description != "" ==> r.description == Some(site.description)
    ensures site.description == "" ==> r.description == state.description
    ensures site.facility != "" ==> r.facility == Some(site.facility)
    ensures site.facility == "" ==> r.facility == state.facility
    // overwritten only when the remote reference is non-nil
    ensures site.region.Some? ==> r.regionId == site.region
    ensures site.region.None? ==> r.regionId == state.regionId
    ensures site.group.Some? ==> r.groupId == site.group
    ensures site.group.None? ==> r.groupId == state.groupId
    ensures site.tenant.Some? ==> r.tenantId == site.tenant
    ensures site.tenant.None? ==> r.tenantId == state.tenantId
    // "" clears the address
    ensures r.physicalAddress == Cleared(site.physicalAddress)
    ensures r.shippingAddress == Cleared(site.shippingAddress)
  {
    state.(
      name := site.name,
      slug := site.slug,
      status := site.status,
      description := if site.description != "" then Some(site.description) else state.description,
      facility := if site.facility != "" then Some(site.facility) else state.facility,
      longitude := site.longitude,
      latitude := site.latitude,
      physicalAddress := Cleared(site.physicalAddress),
      shippingAddress := Cleared(site.shippingAddress),
      regionId := if site.region.Some? then site.region else state.regionId,
      groupId := if site.group.Some? then site.group else state.groupId,
      tenantId := if site.tenant.Some? then site.tenant else state.tenantId,
      timezone := site.timeZone,
      asnIds := AsnSet(site.asns, noAsns))
  }

  /** What a site model becomes after being sent and read back: a null status
      comes back as "", an address set to "" comes back null, and a null or
      empty ASN set comes back as the helper reads "no ASNs". Every other
      attribute comes back unchanged. */
  function AfterRoundTrip(data: SiteModel, noAsns: NoAsns): SiteModel {
    data.(status := Some(data.status.GetOr("")),
          physicalAddress := Cleared(data.physicalAddress.GetOr("")),
          shippingAddress := Cleared(data.shippingAddress.GetOr("")),
          asnIds := AsnSet(data.asnIds.GetOr([]), noAsns))
  }

  /** Outbound then inbound through the remote's copy of the payload. */
  lemma RoundTrip(data: SiteModel, api: Tags.TagApi, noAsns: NoAsns)
    requires GenerateWritableSite(data, api).Mapped?
    ensures ApplyRemoteSite(data, StoredSite(GenerateWritableSite(data, api).site), noAsns) == AfterRoundTrip(data, noAsns)
  {
  }

  /** The round trip reproduces the model exactly when the status is
      non-null, neither address is the empty string, and the ASN set is
      non-empty or is the reading the helper gives to "no ASNs". */
  lemma RoundTripExact(data: SiteModel, api: Tags.TagApi, noAsns: NoAsns)
    requires GenerateWritableSite(data, api).Mapped?
    ensures ApplyRemoteSite(data, StoredSite(GenerateWritableSite(data, api).site), noAsns) == data
            <==> && data.status.Some?
                 && data.physicalAddress != Some("") && data.shippingAddress != Some("")
                 && (if data.asnIds.None? then noAsns == NullSet
                     else data.asnIds.value != [] || noAsns == EmptySet)
  {
    RoundTrip(data, api, noAsns);
    var d := AfterRoundTrip(data, noAsns);
    if d == data {
      assert d.status == data.status && d.asnIds == data.asnIds;
      assert d.physicalAddress == data.physicalAddress && d.shippingAddress == data.shippingAddress;
    }
  }

  /** As written, a round trip never yields a null address, so an address
      removed from the configuration is read back as "" rather than null. */
  lemma AsWrittenRoundTripKeepsEmptyAddresses(data: SiteModel, api: Tags.TagApi, noAsns: NoAsns)
    requires data.physicalAddress.None? || data.shippingAddress.None?
    ensures var r := ApplyRemoteSiteAsWritten(data, StoredSite(GenerateWritableSiteAsWritten(data, api)), noAsns);
            && (data.physicalAddress.None? ==> r.physicalAddress == Some("") && r.physicalAddress != data.physicalAddress)
            && (data.shippingAddress.None? ==> r.shippingAddress == Some("") && r.shippingAddress != data.shippingAddress)
  {
  }

  /** As written, no ASN survives a round trip: a non-empty ASN set comes
      back null or empty. */
  lemma AsWrittenRoundTripDropsAsns(data: SiteModel, api: Tags.TagApi, noAsns: NoAsns)
    requires data.asnIds.Some? && data.asnIds.value != []
    ensures var r := ApplyRemoteSiteAsWritten(data, StoredSite(GenerateWritableSiteAsWritten(data, api)), noAsns);
            r.asnIds != data.asnIds && (r.asnIds.Some? ==> r.asnIds.value == [])
  {
  }
}

=== FILE: site_schema.dfy ===
/** The constraints of the site resource's schema
    (netbox/resource_netbox_site_v6.go, `Schema`): required attributes,
    length bounds, the status enumeration and its default. The framework
    checks them on the configuration before any lifecycle operation runs;
    a validator skips a null value. */
module SiteSchema {
  import opened Framework
  import opened SiteMapper

  const DefaultStatus: string := "active"

  const SlugMin: nat := 1
  const SlugMax: nat := 100
  const DescriptionMin: nat := 1
  const DescriptionMax: nat := 200
  const FacilityMin: nat := 1
  const FacilityMax: nat := 50

  /** One violated constraint, naming the attribute. */
  datatype Violation =
    | Missing(attribute: string)
    | LengthNotBetween(attribute: string, min: nat, max: nat)
    | NotOneOf(attribute: string)

  /** ASCII case folding. */
  function Lower(c: char): (r: char)
    ensures 'A' <= c <= 'Z' ==> r as int == c as int + 32
    ensures !('A' <= c <= 'Z') ==> r == c
  {
    if 'A' <= c <= 'Z' then (c as int + 32) as char else c
  }

  /** The strings are equal up to ASCII case. */
  predicate EqualFold(a: string, b: string) {
    |a| == |b| && forall i :: 0 <= i < |a| ==> Lower(a[i]) == Lower(b[i])
  }

  /** `stringvalidator.OneOfCaseInsensitive(options...)` on a known value. */
  predicate OneOfCaseInsensitive(v: string, options: seq<string>) {
    exists i :: 0 <= i < |options| && EqualFold(v, options[i])
  }

  /** `stringvalidator.LengthBetween(min, max)`: null passes. */
  function LengthBetween(attribute: string, v: Option<string>, min: nat, max: nat): (r: set<Violation>)
    ensures r == {} <==> v.None? || min <= |v.value| <= max
    ensures r != {} ==> r == {LengthNotBetween(attribute, min, max)}
  {
    if v.Some? && !(min <= |v.value| <= max) then {LengthNotBetween(attribute, min, max)} else {}
  }

  function Required(attribute: string, present: bool): (r: set<Violation>)
    ensures r == {} <==> present
    ensures r != {} ==> r == {Missing(attribute)}
  {
    if present then {} else {Missing(attribute)}
  }

  /** The configuration of a site satisfies its schema. */
  predicate ValidSite(config: SiteModel, statusOptions: seq<string>) {
    && config.name.Some?
    && config.slug.Some? && SlugMin <= |config.slug.value| <= SlugMax
    && (config.description.Some? ==> DescriptionMin <= |config.description.value| <= DescriptionMax)
    && (config.facility.Some? ==> FacilityMin <= |config.facility.value| <= FacilityMax)
    && (config.status.Some? ==> OneOfCaseInsensitive(config.status.value, statusOptions))
  }

  /** Every violation of the site schema, attribute by attribute. The status
      options (`resourceNetboxSiteStatusOptions`) are a parameter. */
  function ValidateSite(config: SiteModel, statusOptions: seq<string>): (r: set<Violation>)
    ensures r == {} <==> ValidSite(config, statusOptions)
    ensures Missing("name") in r <==> config.name.None?
    ensures Missing("slug") in r <==> config.slug.None?
    ensures LengthNotBetween("slug", SlugMin, SlugMax) in r
            <==> config.slug.Some? && !(SlugMin <= |config.slug.value| <= SlugMax)
    ensures LengthNotBetween("description", DescriptionMin, DescriptionMax) in r
            <==> config.description.Some? && !(DescriptionMin <= |config.description.value| <= DescriptionMax)
    ensures LengthNotBetween("facility", FacilityMin, FacilityMax) in r
            <==> config.facility.Some? && !(FacilityMin <= |config.facility.value| <= FacilityMax)
    ensures NotOneOf("status") in r
            <==> config.status.Some? && !OneOfCaseInsensitive(config.status.value, statusOptions)
    ensures r <= {Missing("name"), Missing("slug"), LengthNotBetween("slug", SlugMin, SlugMax),
                  LengthNotBetween("description", DescriptionMin, DescriptionMax),
                  LengthNotBetween("facility", FacilityMin, FacilityMax), NotOneOf("status")}
  {
    Required("name", config.name.Some?)
    + Required("slug", config.slug.Some?)
    + LengthBetween("slug", config.slug, SlugMin, SlugMax)
    + (if config.status.Some? && !OneOfCaseInsensitive(config.status.value, statusOptions)
       then {NotOneOf("status")} else {})
    + LengthBetween("description", config.description, DescriptionMin, DescriptionMax)
    + LengthBetween("facility", config.facility, FacilityMin, FacilityMax)
  }

  /** The plan the host builds from a configuration: the status attribute is
      optional and computed, with the static default "active". */
  function PlanFromConfig(config: SiteModel): (plan: SiteModel)
    ensures plan.status.Some?
    ensures config.status.Some? ==> plan.status == config.status
    ensures config.status.None? ==> plan.status == Some(DefaultStatus)
    ensures plan.(status := config.status) == config
  {
    config.(status := Some(config.status.GetOr(DefaultStatus)))
  }

  /** A status accepted for one spelling is accepted for every spelling that
      differs from it only in ASCII case. */
  lemma StatusCaseInsensitive(v: string, w: string, statusOptions: seq<string>)
    requires OneOfCaseInsensitive(v, statusOptions)
    requires EqualFold(v, w)
    ensures OneOfCaseInsensitive(w, statusOptions)
  {
  }

  /** The plan of a valid configuration carries a status that is either the
      default or one of the options up to case, and a slug within bounds. */
  lemma ValidPlanStatus(config: SiteModel, statusOptions: seq<string>)
    requires ValidateSite(config, statusOptions) == {}
    ensures var plan := PlanFromConfig(config);
            plan.status.value == DefaultStatus || OneOfCaseInsensitive(plan.status.value, statusOptions)
    ensures SlugMin <= |PlanFromConfig(config).slug.value| <= SlugMax
  {
  }
}

=== FILE: tags.dfy ===
/** `getNestedTagListFromResourceDataSetV6` (netbox/tags_v6.go): tag names
    resolved one by one to the NetBox tags they name, by the number of tags a
    name-filtered lookup reports. */
module Tags {
  import opened Framework
  import opened Api

  /** The page size each lookup asks for: two results are enough to tell
      "exactly one" from "more than one". */
  const Limit: Int64 := 2

  /** The parameters of one `ExtrasTagsList` call. */
  datatype TagQuery = TagQuery(name: Option<string>, limit: Int64)

  /** models.Tag, the fields the resolver copies. */
  datatype Tag = Tag(name: Option<string>, slug: Option<string>)

  /** The remote's answer to one lookup: the total number of matches and the
      first page of them, or a failed call. */
  datatype TagListAnswer = ListFailed(message: string) | Listed(count: Int64, results: seq<Tag>)

  /** The remote tag catalogue, seen through its lookup call. */
  type TagApi = TagQuery -> TagListAnswer

  function QueryFor(name: string): TagQuery {
    TagQuery(Some(name), Limit)
  }

  /** How one lookup answer is classified: the 0 / 1 / other trichotomy on
      the count, a failed call, and a count of 1 with an empty page (on which
      `payload.Results[0]` is out of range). */
  datatype Lookup = CallFailed | NoMatch | OneMatch(tag: NestedTag) | NotUnique | OutOfRange

  function Classify(a: TagListAnswer): (l: Lookup)
    ensures l.NoMatch? <==> a.Listed? && a.count == 0
    ensures l.OneMatch? <==> a.Listed? && a.count == 1 && a.results != []
    ensures l.NotUnique? <==> a.Listed? && a.count != 0 && a.count != 1
    ensures l.CallFailed? <==> a.ListFailed?
    ensures l.OutOfRange? <==> a.Listed? && a.count == 1 && a.results == []
    ensures l.OneMatch? ==> l.tag == NestedTag(a.results[0].name, a.results[0].slug)
  {
    match a
    case ListFailed(_) => CallFailed
    case Listed(count, results) =>
      if count == 0 then NoMatch
      else if count == 1 then
        if results == [] then OutOfRange
        else OneMatch(NestedTag(results[0].name, results[0].slug))
      else NotUnique
  }

  /** The diagnostic added when a name does not resolve. */
  function FailureDiag(name: string, l: Lookup): (d: Diagnostic)
    requires l.CallFailed? || l.NoMatch? || l.NotUnique?
    ensures d.severity == Error
  {
    var shown := RenderString(Some(name));
    var summary := "Error retrieving tag " + shown + " from netbox";
    match l
    case CallFailed => ErrorDiag(summary, "API Error trying to retrieve tag " + shown + " from netbox")
    case NoMatch => ErrorDiag(summary, "Could not locate referenced tag " + shown + " in netbox")
    case NotUnique => ErrorDiag(summary, "Could not map tag " + shown + " to unique tag in netbox")
  }

  /** The result of resolving a sequence of names, with the lookups issued.
      - `Resolved`: every name matched exactly one tag;
      - `Aborted`: the first name that did not, its diagnostic, and the tags
        of the names before it;
      - `Crashed`: a lookup reported one match but returned none. */
  datatype Resolution =
    | Resolved(tags: seq<NestedTag>, queries: seq<TagQuery>)
    | Aborted(tags: seq<NestedTag>, error: Diagnostic, queries: seq<TagQuery>)
    | Crashed(queries: seq<TagQuery>)

  /** Resolution of `a`'s names followed by `b`'s: `b` continues only a
      complete resolution, and its tags and lookups come after `a`'s. */
  function Then(a: Resolution, b: Resolution): (r: Resolution)
    ensures !a.Resolved? ==> r == a
    ensures a.Resolved? ==> r.queries == a.queries + b.queries
    ensures a.Resolved? && !b.Crashed? ==> !r.Crashed? && r.tags == a.tags + b.tags
    ensures r.Resolved? <==> a.Resolved? && b.Resolved?
  {
    match a
    case Resolved(ts, qs) =>
      (match b
       case Resolved(ts', qs') => Resolved(ts + ts', qs + qs')
       case Aborted(ts', e, qs') => Aborted(ts + ts', e, qs + qs')
       case Crashed(qs') => Crashed(qs + qs'))
    case _ => a
  }

  /** `name` resolves to exactly one tag. */
  predicate Unique(api: TagApi, name: string) {
    Classify(api(QueryFor(name))).OneMatch?
  }

  /** The resolver loop (tags_v6.go:21-54) over the names it iterates:
      one lookup per name, in order, stopping at the first name that does not
      resolve to exactly one tag. */
  function GetNestedTagList(api: TagApi, names: seq<string>): (r: Resolution)
    ensures |r.queries| <= |names|
    ensures !r.Crashed? ==> |r.tags| <= |r.queries|
  {
    if names == [] then Resolved([], [])
    else
      var q := QueryFor(names[0]);
      var l := Classify(api(q));
      match l
      case OneMatch(tag) => Then(Resolved([tag], [q]), GetNestedTagList(api, names[1..]))
      case OutOfRange => Crashed([q])
      case _ => Aborted([], FailureDiag(names[0], l), [q])
  }

  /** Each lookup asks for at most `Limit` tags named by the name it
      resolves, in iteration order: one lookup per name up to the first
      failure. */
  lemma {:induction false} LookupsFollowNames(api: TagApi, names: seq<string>)
    ensures var r := GetNestedTagList(api, names);
            forall i :: 0 <= i < |r.queries| ==> r.queries[i] == QueryFor(names[i])
  {
    if names != [] && Unique(api, names[0]) {
      LookupsFollowNames(api, names[1..]);
    }
  }

  /** Resolution succeeds exactly when every name matches exactly one tag,
      and then it made one lookup per name and returns one tag per name. */
  lemma {:induction false} ResolvedIffAllUnique(api: TagApi, names: seq<string>)
    ensures var r := GetNestedTagList(api, names);
            (r.Resolved? <==> forall i :: 0 <= i < |names| ==> Unique(api, names[i]))
            && (r.Resolved? ==> |r.tags| == |r.queries| == |names|)
  {
    if names != [] && Unique(api, names[0]) {
      ResolvedIffAllUnique(api, names[1..]);
      var r := GetNestedTagList(api, names);
      if forall i :: 0 <= i < |names| ==> Unique(api, names[i]) {
        assert forall i :: 0 <= i < |names[1..]| ==> Unique(api, names[1..][i]) by {
          forall i | 0 <= i < |names[1..]| ensures Unique(api, names[1..][i]) {
            assert names[1..][i] == names[i + 1];
          }
        }
      }
      if r.Resolved? {
        forall i | 0 <= i < |names| ensures Unique(api, names[i]) {
          if i > 0 {
            assert names[i] == names[1..][i - 1];
          }
        }
      }
    }
  }

  /** The i-th returned tag is the single match of the i-th name, carrying
      that tag's name and slug. */
  lemma {:induction false} TagsMatchNames(api: TagApi, names: seq<string>)
    ensures var r := GetNestedTagList(api, names);
            !r.Crashed? ==>
              forall i :: 0 <= i < |r.tags| ==>
                Unique(api, names[i]) && r.tags[i] == Classify(api(QueryFor(names[i]))).tag
  {
    if names != [] && Unique(api, names[0]) {
      TagsMatchNames(api, names[1..]);
      var r := GetNestedTagList(api, names);
      var rest := GetNestedTagList(api, names[1..]);
      if !r.Crashed? {
        forall i | 0 <= i < |r.tags|
          ensures Unique(api, names[i]) && r.tags[i] == Classify(api(QueryFor(names[i]))).tag
        {
          if i > 0 {
            assert r.tags[i] == rest.tags[i - 1];
            assert names[i] == names[1..][i - 1];
          }
        }
      }
    }
  }

  /** An aborted resolution stops at the first name that does not resolve:
      one lookup past the resolved ones, and that name's diagnostic. A crash
      happens on a lookup that reported one match and returned none. */
  lemma {:induction false} StopsAtFirstFailure(api: TagApi, names: seq<string>)
    ensures var r := GetNestedTagList(api, names);
            (r.Aborted? ==>
              |r.queries| == |r.tags| + 1
              && var l := Classify(api(QueryFor(names[|r.tags|])));
                 (l.CallFailed? || l.NoMatch? || l.NotUnique?) && r.error == FailureDiag(names[|r.tags|], l))
            && (r.Crashed? ==>
              |r.queries| >= 1 && Classify(api(QueryFor(names[|r.queries| - 1]))).OutOfRange?)
  {
    if names != [] && Unique(api, names[0]) {
      StopsAtFirstFailure(api, names[1..]);
      var r := GetNestedTagList(api, names);
      var rest := GetNestedTagList(api, names[1..]);
      if r.Aborted? {
        assert names[|r.tags|] == names[1..][|rest.tags|];
      }
      if r.Crashed? {
        assert names[|r.queries| - 1] == names[1..][|rest.queries| - 1];
      }
    }
  }

  /** Conversely, the first name that does not resolve to exactly one tag
      decides the outcome: a failed call, no match or several matches add
      that name's diagnostic and stop with the tags of the names before it,
      and no later name is looked up; a count of 1 with an empty page
      crashes on that lookup. */
  lemma {:induction false} FirstFailureStops(api: TagApi, names: seq<string>, k: nat)
    requires k < |names|
    requires forall i :: 0 <= i < k ==> Unique(api, names[i])
    requires !Unique(api, names[k])
    ensures var r := GetNestedTagList(api, names);
            var l := Classify(api(QueryFor(names[k])));
            (l.OutOfRange? ==> r.Crashed? && |r.queries| == k + 1)
            && (!l.OutOfRange? ==>
                  r.Aborted? && |r.tags| == k && |r.queries| == k + 1 && r.error == FailureDiag(names[k], l))
  {
    if k > 0 {
      assert Unique(api, names[0]);
      forall i | 0 <= i < k - 1 ensures Unique(api, names[1..][i]) {
        assert names[1..][i] == names[i + 1];
      }
      assert names[1..][k - 1] == names[k];
      FirstFailureStops(api, names[1..], k - 1);
    }
  }

  /** The function as written: the loop ranges over a slice made with length
      0 (capacity `len(d.Elements())`), so no lookup is made and the returned
      list is always the empty, non-nil one. Diagnostics it would add go to
      its by-value copy of the caller's diagnostics, so only tags come back. */
  function GetNestedTagListAsWritten(api: TagApi, names: seq<string>): (r: seq<NestedTag>)
    ensures r == []
  {
    var iterated := names[..0];
    GetNestedTagList(api, iterated).tags
  }

  /** A name that matches no tag aborts resolution: the written function
      would still return an empty list with no error. */
  lemma {:induction false} MissingTagAborts(api: TagApi, names: seq<string>, k: nat)
    requires k < |names|
    requires Classify(api(QueryFor(names[k]))).NoMatch?
    ensures GetNestedTagList(api, names).Aborted? || GetNestedTagList(api, names).Crashed?
    ensures GetNestedTagList(api, names).Aborted? ==> |GetNestedTagList(api, names).tags| <= k
    ensures GetNestedTagListAsWritten(api, names) == []
  {
    assert !Unique(api, names[k]);
    ResolvedIffAllUnique(api, names);
    TagsMatchNames(api, names);
  }

  /** Resolving a concatenation resolves the first part, then continues with
      the second only when the first part resolved completely. */
  lemma {:induction false} ResolveAppend(api: TagApi, xs: seq<string>, ys: seq<string>)
    ensures GetNestedTagList(api, xs + ys) == Then(GetNestedTagList(api, xs), GetNestedTagList(api, ys))
  {
    if xs == [] {
      assert xs + ys == ys;
    } else {
      assert (xs + ys)[0] == xs[0];
      assert (xs + ys)[1..] == xs[1..] + ys;
      var l := Classify(api(QueryFor(xs[0])));
      if l.OneMatch? {
        ResolveAppend(api, xs[1..], ys);
        ThenAssociative(Resolved([l.tag], [QueryFor(xs[0])]),
                        GetNestedTagList(api, xs[1..]), GetNestedTagList(api, ys));
      }
    }
  }

  lemma ThenAssociative(a: Resolution, b: Resolution, c: Resolution)
    ensures Then(Then(a, b), c) == Then(a, Then(b, c))
  {
  }
}

=== FILE: virtual_machines.dfy ===
/** The virtual machine resource
    (netbox/resource_netbox_virtual_machine_v6.go): its model and schema,
    Create and Read against the remote store, and the Update and Delete that
    are not implemented. */
module VirtualMachines {
  import opened Framework
  import opened Api

  /** netboxVirtualMachineModel */
  datatype VmModel = VmModel(id: Option<Int64>, name: Option<string>, clusterId: Option<Int64>, status: Option<string>)

  const CreateFailedSummary: string := "An error occured while creating the Virtual Machine"
  const ReadFailedSummary: string := "Error while reading the Virtual Machine"
  const NotImplemented: string := "implement me"

  /** The schema: `name` and `status` are required, `cluster_id` optional. */
  predicate ValidVm(config: VmModel) {
    config.name.Some? && config.status.Some?
  }

  function TrackedId(state: VmModel): Int64 {
    state.id.GetOr(0)
  }

  /** The create payload as evidently intended: the status by `ValueString()`. */
  function CreatePayload(plan: VmModel): (w: WritableVirtualMachine)
    ensures w.name == plan.name
    ensures plan.status.Some? ==> w.status == plan.status.value
    ensures plan.clusterId.Some? ==> w.cluster == plan.clusterId
    ensures plan.clusterId.None? ==> w.cluster.None?
  {
    WritableVirtualMachine(plan.name, plan.status.GetOr(""), plan.clusterId)
  }

  /** The create payload as written (lines 76-82): the status is rendered by
      `String()`, which quotes it. */
  function CreatePayloadAsWritten(plan: VmModel): (w: WritableVirtualMachine)
    ensures w == CreatePayload(plan).(status := RenderString(plan.status))
  {
    var vm := WritableVirtualMachine(plan.name, RenderString(plan.status), None);
    if plan.clusterId.Some? then vm.(cluster := plan.clusterId) else vm
  }

  /** The written payload never carries the planned status as it is. */
  lemma AsWrittenNeverSendsPlannedStatus(plan: VmModel)
    requires plan.status.Some?
    ensures CreatePayloadAsWritten(plan).status != plan.status.value
    ensures CreatePayload(plan).status == plan.status.value
  {
  }

  /** Create as written and as corrected differ only in the status payload. */
  function CreateWith(plan: VmModel, w: WritableVirtualMachine, store: Store, answer: CreateAnswer): (r: Outcome<VmModel>)
    requires answer.Assigned? ==> answer.id !in store.vms
    ensures r.Wrote? || r.Failed?
    ensures r.Wrote? <==> answer.Assigned?
    ensures r.Wrote? ==>
              && r.state == plan.(id := Some(answer.id))
              && r.store.vms == store.vms[answer.id := StoredVm(w)]
              && r.store.sites == store.sites
    ensures r.Failed? ==> r.store == store && HasError(r.diags)
  {
    var call := VmsCreate(store, w, answer);
    match call.result
    case Err(e) =>
      var d := ErrorDiag(CreateFailedSummary, e.message);
      assert [d][0] == d;
      Failed([d], call.store)
    case Ok(id) => Wrote(plan.(id := Some(id)), call.store)
  }

  /** Create: on success the plan is tracked under the assigned identifier;
      on failure an error is reported and nothing is tracked. */
  function Create(plan: VmModel, store: Store, answer: CreateAnswer): (r: Outcome<VmModel>)
    requires answer.Assigned? ==> answer.id !in store.vms
    ensures r.Wrote? || r.Failed?
    ensures r.Wrote? <==> answer.Assigned?
    ensures r.Wrote? ==> r.state == plan.(id := Some(answer.id)) && r.store.vms == store.vms[answer.id := StoredVm(CreatePayload(plan))]
    ensures r.Wrote? ==> r.store.sites == store.sites
    ensures r.Failed? ==> r.store == store && HasError(r.diags)
  {
    CreateWith(plan, CreatePayload(plan), store, answer)
  }

  /** Create as written: the same outcome as Create, with the status sent in
      its quoted rendering. */
  function CreateAsWritten(plan: VmModel, store: Store, answer: CreateAnswer): (r: Outcome<VmModel>)
    requires answer.Assigned? ==> answer.id !in store.vms
    ensures r.Wrote? || r.Failed?
    ensures r.Wrote? <==> answer.Assigned?
    ensures r.Wrote? ==> r.state == plan.(id := Some(answer.id)) && r.store.vms == store.vms[answer.id := StoredVm(CreatePayloadAsWritten(plan))]
    ensures r.Wrote? ==> r.store.sites == store.sites
    ensures r.Failed? ==> r.store == store && HasError(r.diags)
  {
    CreateWith(plan, CreatePayloadAsWritten(plan), store, answer)
  }

  /** The inbound copy at the end of `resourceNetboxVirtualMachine.Read`:
      name, cluster and status come from the remote, a nil cluster becoming
      a null `cluster_id`; the identifier is kept. */
  function ApplyRemoteVm(state: VmModel, vm: VirtualMachine): (r: VmModel)
    ensures r.id == state.id
    ensures r.name == vm.name && r.status == vm.status
    ensures vm.cluster.None? ==> r.clusterId.None?
    ensures vm.cluster.Some? ==> r.clusterId == Some(vm.cluster.value)
  {
    VmModel(state.id, vm.name, if vm.cluster.Some? then Some(vm.cluster.value) else None, vm.status)
  }

  /** Read as evidently intended: 404 drops the resource without error, any
      other failure is reported. */
  function Read(state: VmModel, store: Store, fault: Option<ApiError>): (r: Outcome<VmModel>)
    ensures !r.Panicked?
    ensures r.Removed? <==> VmsRead(store, TrackedId(state), fault).Err? && VmsRead(store, TrackedId(state), fault).error.IsNotFound()
    ensures r.Wrote? <==> VmsRead(store, TrackedId(state), fault).Ok?
    ensures r.Wrote? ==> r.state == ApplyRemoteVm(state, VmsRead(store, TrackedId(state), fault).value)
    ensures r.Failed? ==> HasError(r.diags)
    ensures !r.Panicked? ==> r.store == store
  {
    match VmsRead(store, TrackedId(state), fault)
    case Err(e) =>
      if e.IsNotFound() then Removed(store)
      else
        var d := ErrorDiag(ReadFailedSummary, e.message);
        assert [d][0] == d;
        Failed([d], store)
    case Ok(vm) => Wrote(ApplyRemoteVm(state, vm), store)
  }

  /** Read as written: any failure but the typed 404 dereferences a nil response. */
  function ReadAsWritten(state: VmModel, store: Store, fault: Option<ApiError>): (r: Outcome<VmModel>)
    ensures !r.Failed?
    ensures r.Removed? <==> VmsRead(store, TrackedId(state), fault).Err? && VmsRead(store, TrackedId(state), fault).error.IsNotFound()
    ensures r.Panicked? <==> VmsRead(store, TrackedId(state), fault).Err? && !VmsRead(store, TrackedId(state), fault).error.IsNotFound()
    ensures r.Wrote? ==> r == Read(state, store, fault)
    ensures !r.Panicked? ==> r.store == store
  {
    match VmsRead(store, TrackedId(state), fault)
    case Err(e) => if e.IsNotFound() then Removed(store) else Panicked(NilDereference)
    case Ok(vm) => Wrote(ApplyRemoteVm(state, vm), store)
  }

  /** Update is not implemented: it always panics. */
  function Update(plan: VmModel, state: VmModel, store: Store): (r: Outcome<VmModel>)
    ensures r.Panicked? && r.reason == NotImplemented
  {
    Panicked(NotImplemented)
  }

  /** Delete is not implemented: it always panics. */
  function Delete(state: VmModel, store: Store): (r: Outcome<VmModel>)
    ensures r.Panicked? && r.reason == NotImplemented
  {
    Panicked(NotImplemented)
  }

  /** Neither Update nor Delete can change the tracked state or drop it. */
  lemma NoTransitionThroughUpdateOrDelete(plan: VmModel, state: VmModel, store: Store)
    ensures !Update(plan, state, store).Wrote? && !Update(plan, state, store).Removed?
    ensures !Delete(state, store).Wrote? && !Delete(state, store).Removed?
  {
  }

  /** A machine deleted behind the provider's back: Read drops it without error. */
  lemma ReadOfVanishedVmRemovesState(state: VmModel, store: Store)
    requires TrackedId(state) !in store.vms
    ensures Read(state, store, None) == Removed(store)
    ensures ReadAsWritten(state, store, None) == Removed(store)
  {
  }

  /** Create then Read: `cluster_id` comes back as planned, null or not; with
      the corrected payload the whole valid plan comes back, while the
      written payload brings the status back quoted. */
  lemma CreateThenRead(plan: VmModel, store: Store, id: Int64)
    requires id !in store.vms
    requires ValidVm(plan)
    ensures var c := Create(plan, store, Assigned(id));
            Read(c.state, c.store, None) == Wrote(plan.(id := Some(id)), c.store)
    ensures var c := CreateAsWritten(plan, store, Assigned(id));
            var r := Read(c.state, c.store, None);
            r.Wrote? && r.state.clusterId == plan.clusterId && r.state.name == plan.name
            && r.state.status == Some(RenderString(plan.status)) && r.state.status != plan.status
  {
  }
}
